=== FILE: README.md ===
# Domain checker bot — a Dafny model of its decision logic

The bot watches a list of domain names for a Discord server. It answers an on-demand
`!domaincheck <name>` command by probing the name under 19 top-level domains. It keeps a
watchlist that the `!watchlist` command edits. The code defines a daily loop that re-checks
every watched domain and reports status changes, and a 30-minute loop that refreshes a status
board; as written, neither is started (see below). The `!report` command (lines 625-629) posts
a digest of the watchlist.

This project models the pure logic inside that plumbing:

- the availability decision of `check_domain_availability`, with the WHOIS answer and the
  host-name lookup as inputs;
- the TLD fan-out of `check_multiple_tlds`, the flag lookup `get_domain_flag`, and the
  interactive command's main-domain line, alternatives and footer;
- the watchlist document, the `add` / `remove` / overview branches of `manage_watchlist`, and
  the seed watchlist;
- the daily sweep as a fold over the watchlist, with each entry's lookup outcome as input, and
  the split of its changes into the priority batch and the ordinary batch;
- the status board's buckets, expiry notes, field selection and counts;
- the weekly digest's classification, counts and role mention;
- the bot as a state machine over commands and sweeps, with the invariant that the weekly
  digest's "newly available / newly taken" lists are always empty.

Modules, one per file: `Basics` (options, ASCII lower-casing, filters, counts), `Time`,
`Resolver`, `DomainChecker` (tlds.dfy), `InteractiveCheck`, `Watchlist`, `Sweep`, `Notify`,
`Dashboard`, `Weekly`, `Engine`.

Modelling choices:

- Points in time are whole seconds (`Time.Timestamp`). The current time is always a parameter.
  `(expiry - now).days` is floor division by 86400, as Python's `timedelta.days` is.
- WHOIS and DNS are a `Resolver.Network` value: total functions from a domain name to the
  service's answer. Each entry's outcome in the sweep is an input sequence of `Resolution`
  values, either an answer or a raised exception.
- Python's `None` is `Basics.Option`. A probe that raised is `CheckResult(None, None)`.
- `str.lower()` is modelled on ASCII letters only.

Behaviour of the code that the model keeps:

- `check_domain_availability` catches only `socket.gaierror` in its fallback (line 84), so any
  other error of the host lookup propagates to the caller. `Resolve` returns `Raised` in that
  case.
- A WHOIS record whose expiry is an empty list makes `expiration_date[0]` raise inside the
  `try`. That sends the lookup to the host-name fallback, and `Resolve` does the same. A list
  whose first element is `None` gives a taken domain without expiry.
- The digest pings the alert role only for available priority domains (lines 698-709).
  Domains that are about to expire never trigger it.
- `setup_hook` (lines 161-165) tries to start the daily loop and the status-board loop as
  `self.daily_check` and `self.update_status_embed`. Neither is an attribute of the bot class:
  both loops are module-level (lines 358-359 and 451-452), so as written line 163 raises
  `AttributeError` and neither loop is started. The `weekly_report` loop (lines 823-826) is
  never started at all, so the digest is only sent on `!report`. The model describes what one
  sweep and one board refresh compute, as events of a state machine, and does not model how
  the loops are started.

## Model

| member | source | states |
|---|---|---|
| Time.DaysUntil | domain_checker_bot.py:492 | the day count is the floor of the remaining seconds over 86400: `d*86400 <= expiry-now < (d+1)*86400` |
| Resolver.Resolve | domain_checker_bot.py:61-85 | raises exactly when WHOIS fails (query error or empty expiry list) and the host lookup fails with something other than gaierror; available exactly for a WHOIS answer without a domain name or a failed WHOIS plus an unknown host; an available domain has no expiry; an expiry only comes from a WHOIS record and is its first date; a WHOIS answer never consults DNS |
| Resolver.RegisteredRecord | domain_checker_bot.py:71-78 | a record with a domain name and a scalar or non-empty list expiry is taken, with the scalar or first list element as expiry (a leading `None` gives no expiry), whatever DNS says |
| Resolver.WhoisAnswerIgnoresHost | domain_checker_bot.py:66-78 | when WHOIS answers without raising, the outcome is the same whatever the host lookup would do |
| Resolver.WhoisFailure | domain_checker_bot.py:80-85 | after a failed WHOIS query: a resolving host means taken, gaierror means available, any other error propagates |
| DomainChecker.GetDomainFlag | domain_checker_bot.py:47-59 | the flag is that of the first table suffix (in table order) that ends the domain; the white flag when none does |
| DomainChecker.FirstFlagRow | domain_checker_bot.py:56-58 | the row found ends the domain and no earlier row does; none found means no row ends it |
| DomainChecker.BaseName | domain_checker_bot.py:91-92 | the base is a dot-free prefix of the name, followed by a dot unless it is the whole name |
| DomainChecker.BaseNameUnique | domain_checker_bot.py:91-92 | any dot-free prefix that is followed by a dot, or is the whole name, is the base name |
| DomainChecker.ProbeAll | domain_checker_bot.py:94-105 | 19 probes in TLD order, probe i is `base + TLDS[i]`; a probe is unknown exactly when its own lookup raised and then has no expiry; otherwise it carries that lookup |
| DomainChecker.ResultsMap | domain_checker_bot.py:101-105 | every probed domain is a key and every key is a probed domain |
| DomainChecker.ResultsMapOfDistinct | domain_checker_bot.py:101-105 | with distinct keys the dictionary has one entry per probe and each key holds its own probe's value |
| DomainChecker.TldsDistinct | domain_checker_bot.py:41-45 | the 19 listed TLDs are pairwise different |
| DomainChecker.ExpansionDistinct | domain_checker_bot.py:95-96 | the expanded domains are pairwise different |
| DomainChecker.ExpansionResults | domain_checker_bot.py:87-107 | the result has exactly 19 keys, the keys are exactly `base + tld` for the listed TLDs, and each holds its own lookup's outcome |
| DomainChecker.ExpansionSize | domain_checker_bot.py:101-105 | the result dictionary has one key per probe |
| DomainChecker.SiblingsIndependent | domain_checker_bot.py:99-105 | changing what one expanded domain's lookup does changes no other probe |
| DomainChecker.QualifiedNameExpansion | domain_checker_bot.py:91-96 | "shop.de" is cut to "shop" and probed as shop.com and shop.de |
| DomainChecker.QualifiedNameNotAppended | domain_checker_bot.py:91-96 | no probe of "shop.de" is "shop.de.com" |
| InteractiveCheck.MainDomain | domain_checker_bot.py:206 | the main domain always contains a dot; a bare name's main domain is its own first probe (base name plus ".com"), a dotted argument is taken as typed |
| InteractiveCheck.MainLineFor | domain_checker_bot.py:207-222 | a main-domain line exists exactly when the main domain is a result key; it shows available exactly when that probe said True; it carries the probe's expiry, and a day count exactly when there is one, equal to the whole days left |
| InteractiveCheck.AvailableAlternatives | domain_checker_bot.py:226-234 | lists every probe other than the main domain that said available, and only those |
| InteractiveCheck.TakenAlternatives | domain_checker_bot.py:226-236 | lists every probe other than the main domain that said taken, with its expiry, and only those; unknown probes are skipped |
| InteractiveCheck.CheckDomain | domain_checker_bot.py:179-256 | a missing argument gives the usage error; otherwise the main line is the main domain's probe from the fan-out, the two lists are the first 8 available and the first 8 taken alternatives among the fan-out's probes, and the footer's available and taken figures add up to the checked count |
| InteractiveCheck.MainDomainListed | domain_checker_bot.py:206-207 | the main line appears exactly for a bare name or a name whose text from the first dot on is a listed TLD |
| InteractiveCheck.FooterCounts | domain_checker_bot.py:252-256 | the footer always reports 19 checked domains; "available" counts probes that said True and "taken" counts all others, failed probes included |
| Watchlist.AddDomain | domain_checker_bot.py:305-316 | rejects exactly a name already present; otherwise appends one entry at the end with no status and leaves the rest untouched; unique names stay unique |
| Watchlist.Without | domain_checker_bot.py:324-327 | keeps exactly the entries with a different name; the length is unchanged exactly when the name was absent |
| Watchlist.RemoveDomain | domain_checker_bot.py:322-333 | reports found exactly when the list got shorter, which is exactly when the name was watched; afterwards the name is gone |
| Watchlist.WithoutAppend | domain_checker_bot.py:324-327 | removal keeps the relative order of the remaining entries (it distributes over concatenation) |
| Watchlist.WithoutAbsent | domain_checker_bot.py:324-333 | removing an absent name changes nothing |
| Watchlist.AddThenRemove | domain_checker_bot.py:305-333 | adding a new name and then removing it succeeds twice and gives back the original list |
| Watchlist.PriorityWordIgnoresCase | domain_checker_bot.py:306 | the priority word is recognised regardless of letter case |
| Watchlist.PriorityWordUpperCase | domain_checker_bot.py:306 | "TRUE" marks a priority domain |
| Watchlist.PriorityWordDefault | domain_checker_bot.py:263-306 | the default word "false" does not |
| Watchlist.OverviewRows | domain_checker_bot.py:272-284 | every entry appears in the priority column or the standard column according to its flag, green exactly when its last status is True |
| Watchlist.OverviewRowsAppend | domain_checker_bot.py:275-284 | an entry appended to the list adds exactly one row, at the end of the column its priority flag picks, green exactly when its status is True, and moves no other row |
| Watchlist.AddedRowShown | domain_checker_bot.py:272-316 | after a successful add the overview gains exactly one red row for the new name, at the end of its column |
| Watchlist.Command | domain_checker_bot.py:263-335 | no branch touches the statistics; only a successful add or remove changes the list; an add of a given name succeeds exactly when the name is new and reports a duplicate otherwise, appending the new unchecked entry with priority from the word; a remove of a given name succeeds exactly when it is watched, leaves exactly the other entries in their order, and reports it missing otherwise; no action gives the overview, any other action or a missing name the usage text; unique names stay unique; no entry ever gains a status |
| Sweep.DetectChange | domain_checker_bot.py:369-381 | a change exactly when the lookup answered and a known previous status differs from it; the change records name, priority, old and new status and expiry |
| Sweep.SweepEntries | domain_checker_bot.py:366-387 | the priority alerts are exactly the changes of priority domains that became available, in order; at most one change per entry |
| Sweep.SweepStatuses | domain_checker_bot.py:366-387 | names and priority flags are kept; an entry that answered stores its new result, one whose lookup raised keeps its old status |
| Sweep.SweepChanges | domain_checker_bot.py:366-381 | the changes are exactly the per-entry detections, in watchlist order, whatever the results map held |
| Sweep.SweepResults | domain_checker_bot.py:384-387 | the results map gains exactly the names that answered; every other name keeps its earlier result |
| Sweep.SweepRecordsAnswers | domain_checker_bot.py:383-384 | with unique names, each entry that answered finds its own lookup in the results map |
| Sweep.DailyCheck | domain_checker_bot.py:358-393 | the changes are exactly the per-entry detections in watchlist order; each entry gets its own lookup's status, or keeps its old one when the lookup raised; the stored results gain exactly the names that answered and keep every other earlier result, and with unique names each answered name holds its own lookup; the check counter goes up by one, the change counter by the number of changes, last_alert is untouched, the last full check is now, the alerts are the priority changes |
| Sweep.TransitionDetection | domain_checker_bot.py:371-384 | taken-to-available yields exactly one change; no stored status yields none; a raised lookup yields none |
| Notify.DomainsOf | domain_checker_bot.py:416-421 | the priority batch names each alert's domain, in order |
| Notify.NotAmong | domain_checker_bot.py:438-439 | the summary lists only changes that are not among the alerts |
| Notify.SendChangeNotifications | domain_checker_bot.py:402-449 | no report channel means no message; at most two messages; the summary reports the number of all changes, priority ones included |
| Notify.DailyNotifications | domain_checker_bot.py:392-395 | a sweep without changes sends nothing |
| Notify.NotAmongAlerts | domain_checker_bot.py:438-439 | when the alerts are the priority changes, the value-membership test leaves exactly the ordinary changes |
| Notify.MoreChangesThanAlerts | domain_checker_bot.py:408-430 | more changes than alerts exactly when some change is ordinary; some alert exactly when some change is a priority one |
| Notify.DispatchPartition | domain_checker_bot.py:402-449 | a priority batch naming every alert is sent exactly when there is a priority change, and a summary listing exactly the ordinary changes in order exactly when there is an ordinary one; no change is in both |
| Notify.DailyDispatch | domain_checker_bot.py:392-449 | the sweep's own notifications follow that partition, and nothing is sent without changes |
| Notify.TwoDomainsFreed | domain_checker_bot.py:366-393 | two registered domains, one of them priority, found available: two changes in order, one priority alert, change counter +2 |
| Notify.TwoDomainsFreedMessages | domain_checker_bot.py:408-449 | those changes give one alert naming b.io and one summary of two changes listing a.com |
| Dashboard.ExpiryText | domain_checker_bot.py:489-501 | no expiry date means the plain taken note; with a date, 0 or fewer whole days left is exactly the expired note, 1 to 29 exactly the warning note and 30 or more exactly the plain day count, each with that day count |
| Dashboard.ExpiryTextInSeconds | domain_checker_bot.py:491-501 | in seconds: expired as soon as less than one full day is left, warning from one to thirty days, plain beyond |
| Dashboard.Classify | domain_checker_bot.py:474-510 | pending exactly when the name has no stored result; priority-available, available and taken exactly by the stored availability and the priority flag; a taken priority domain has the fire marker and every taken row the expiry note of its stored date |
| Dashboard.BuildBoard | domain_checker_bot.py:474-510 | the four buckets hold one row per entry in total, each row of its own kind |
| Dashboard.AllRows | domain_checker_bot.py:474 | one row per entry, in watchlist order |
| Dashboard.BoardPartition | domain_checker_bot.py:474-510 | the priority and available buckets are the subsequences of all rows of their kind, in watchlist order |
| Dashboard.BoardPartitionRest | domain_checker_bot.py:474-510 | so are the taken and pending buckets |
| Dashboard.BoardCounts | domain_checker_bot.py:543-560 | the available figure counts entries stored as available, "not checked" counts entries without a result, taken is the rest |
| Dashboard.BoardLayout | domain_checker_bot.py:512-560 | the priority field exists exactly with priority rows and shows the first five; the monitoring field always shows the first six taken rows, the first six available rows exactly when there is no priority row, and the first three pending rows while fewer than six rows are available or taken, and no pending row otherwise; no row beyond those first six, six and three is ever shown; the placeholder exactly when empty; statistics exactly for a non-empty list, with the four figures |
| Dashboard.PlaceholderCondition | domain_checker_bot.py:519-539 | the placeholder appears exactly when nothing is taken, the available rows are absent or hidden, and the pending rows are absent or suppressed |
| Dashboard.StatusBoard | domain_checker_bot.py:451-561 | statistics are shown exactly for a non-empty watchlist; the total is the watchlist length, the available figure counts entries stored as available, the not-checked figure entries without a result, and the three figures add up to the total |
| Dashboard.PlaceholderNeedsPriority | domain_checker_bot.py:519-539 | for a non-empty watchlist the "no domains configured" placeholder needs a priority row |
| Dashboard.PlaceholderWithOnePriorityDomain | domain_checker_bot.py:512-539 | a watchlist of one available priority domain shows that placeholder next to the priority field |
| Weekly.ReportLists | domain_checker_bot.py:648-673 | a taken entry is expiring soon exactly when it has 1 to 29 whole days left, with that count; available and taken rows never exceed the entries |
| Weekly.ReportNewlyAvailable | domain_checker_bot.py:654-656 | "newly available" names exactly the entries whose known status disagrees with a stored available result, in order |
| Weekly.ReportNewlyTaken | domain_checker_bot.py:654-658 | "newly taken" likewise for a stored taken result |
| Weekly.ReportPriorityAvailable | domain_checker_bot.py:660-662 | the priority list names exactly the priority entries stored as available |
| Weekly.ReportOrdinaryAvailable | domain_checker_bot.py:660-664 | the available list names exactly the other entries stored as available |
| Weekly.ReportTaken | domain_checker_bot.py:665-673 | the taken list holds exactly the entries stored as taken, in watchlist order, each with the whole days left until its stored expiry (none without one) |
| Weekly.NoNewsWhenConsistent | domain_checker_bot.py:654-658 | when every stored status is unknown or equal to the stored result, both "newly" lists are empty |
| Weekly.ReportSizes | domain_checker_bot.py:648-673 | the priority-available, available, taken, newly-available and newly-taken lists have as many rows as entries of their kind |
| Weekly.WeeklyReport | domain_checker_bot.py:641-678 | the digest reports the list length as total; its change figure counts the entries whose known status disagrees with the stored result; the available figure counts entries stored as available and the taken figure entries stored as taken; available plus taken never exceed the total |
| Weekly.WeeklyMention | domain_checker_bot.py:698-709 | the role is mentioned exactly when some priority entry is stored as available |
| Weekly.WeeklyQuiet | domain_checker_bot.py:695-722 | on a consistent state the header reports zero changes and there is no changes field |
| Engine.BootInvariant | domain_checker_bot.py:125-126 | a fresh start (unique names, no results yet) satisfies the invariant |
| Engine.SeedBoots | domain_checker_bot.py:138-151 | the seed watchlist is a valid start |
| Engine.CommandKeepsInvariant | domain_checker_bot.py:305-333 | add and remove keep unique names and consistent statuses |
| Engine.SweepKeepsInvariant | domain_checker_bot.py:366-387 | a sweep keeps unique names and consistent statuses, whatever its lookups answer |
| Engine.StepKeepsInvariant | domain_checker_bot.py:263-393 | every state-changing event keeps the invariant |
| Engine.ReachableInvariant | domain_checker_bot.py:263-393 | every state reachable from a valid one satisfies the invariant |
| Engine.WeeklyNeverReportsChanges | domain_checker_bot.py:654-722 | in every reachable state the digest reports zero changes and no changes field |
| Engine.Counters | domain_checker_bot.py:389-393 | the check counter counts the sweeps exactly, the change counter never decreases, last_alert never changes |

## Left out

- Discord: embeds, colours, emoji, text formatting, message send, edit and fetch, the status-message upsert, role lookup, permissions and the help texts. The weekly digest's role mention is modelled as the decision to mention; whether the role exists is not.
- The weekly digest and the status board both return early when their channel is missing. That lookup is not modelled. The change dispatcher's channel check is a parameter.
- Real WHOIS and `socket.gethostbyname` calls: they are the `Network` parameter.
- Concurrency is not needed: `check_domain_availability` (lines 61-85) contains no `await` and calls the blocking `whois.whois` and `socket.gethostbyname`, so the `await` in the sweep (line 369) never yields and no command runs inside the sweep loop, and `asyncio.gather` (line 99) runs the 19 lookups one after another. The state machine's one-event-at-a-time steps are what the code does; `gather` is modelled as its result, one outcome per TLD in list order.
- The timers (`tasks.loop`) and the weekly wall-clock trigger: time is only a parameter.
- JSON load and save and the file fallback. Only the seed watchlist is modelled, and the state machine assumes it starts from a watchlist with unique names. A hand-edited file with duplicate names is outside the invariant.
- Dates as text (`isoformat`, `strftime`), week numbers, the "last updated N hours ago" text, and the uptime and performance constants.
- Floating point: percentages and progress bars on the status board and in the digest.
- Environment variables and the token.
- The "full domain list" follow-up message of the weekly digest. Only the decision to send it is modelled.
- Basics.Lower: lowercases ASCII letters only. Python's `str.lower` also maps other Unicode letters; the accepted words and commands are ASCII.

=== FILE: basics.dfy ===
/** Small general-purpose definitions shared by every component of the model:
    an optional value, ASCII lower-casing, suffix tests and order-preserving filters. */
module Basics {

  /** Python's `None` or a present value. */
  datatype Option<+T> = None | Some(value: T)

  /** Lower-cases one character the way `str.lower` does on ASCII letters. */
  function LowerChar(c: char): char
  {
    if 'A' <= c <= 'Z' then (c as int + 32) as char else c
  }

  /** `s.lower()`, restricted to ASCII letters: every character is mapped on its own. */
  function Lower(s: string): (r: string)
    ensures |r| == |s|
    ensures forall i :: 0 <= i < |s| ==> r[i] == LowerChar(s[i])
  {
    if s == [] then [] else [LowerChar(s[0])] + Lower(s[1..])
  }

  /** `s.endswith(suffix)`. */
  predicate EndsWith(s: string, suffix: string)
  {
    |suffix| <= |s| && s[|s| - |suffix|..] == suffix
  }

  /** The elements of `s` that satisfy `keep`, in their original order
      (a Python list comprehension with an `if`). */
  function Filter<T>(s: seq<T>, keep: T -> bool): (r: seq<T>)
    ensures |r| <= |s|
    ensures forall i :: 0 <= i < |r| ==> r[i] in s && keep(r[i])
    ensures forall i :: 0 <= i < |s| && keep(s[i]) ==> s[i] in r
  {
    if s == [] then []
    else (if keep(s[0]) then [s[0]] else []) + Filter(s[1..], keep)
  }

  /** Number of elements of `s` that satisfy `p`. */
  function Count<T>(s: seq<T>, p: T -> bool): (n: nat)
    ensures n <= |s|
  {
    if s == [] then 0 else (if p(s[0]) then 1 else 0) + Count(s[1..], p)
  }

  lemma {:induction false} FilterLength<T>(s: seq<T>, keep: T -> bool)
    ensures |Filter(s, keep)| == Count(s, keep)
  {
    if s != [] {
      FilterLength(s[1..], keep);
    }
  }

  /** Filtering distributes over concatenation. */
  lemma {:induction false} FilterAppend<T>(a: seq<T>, b: seq<T>, keep: T -> bool)
    ensures Filter(a + b, keep) == Filter(a, keep) + Filter(b, keep)
  {
    if a == [] {
      assert a + b == b;
    } else {
      assert (a + b)[1..] == a[1..] + b;
      FilterAppend(a[1..], b, keep);
    }
  }

  /** No value occurs twice in `s`. */
  predicate Distinct<T(==)>(s: seq<T>)
  {
    forall i, j :: 0 <= i < j < |s| ==> s[i] != s[j]
  }

  /** Two complementary predicates split a sequence's length between them. */
  lemma {:induction false} CountComplement<T>(s: seq<T>, p: T -> bool, q: T -> bool)
    requires forall x :: q(x) == !p(x)
    ensures Count(s, p) + Count(s, q) == |s|
  {
    if s != [] {
      CountComplement(s[1..], p, q);
    }
  }

  /** Some element satisfies `p` exactly when the count is positive. */
  lemma {:induction false} CountPositive<T>(s: seq<T>, p: T -> bool)
    ensures Count(s, p) > 0 <==> exists i :: 0 <= i < |s| && p(s[i])
  {
    if s != [] {
      CountPositive(s[1..], p);
      assert forall i :: 1 <= i < |s| ==> s[i] == s[1..][i - 1];
    }
  }

  /** `s[:n]`: the first `n` elements, or all of them when there are fewer. */
  function Take<T>(s: seq<T>, n: nat): (r: seq<T>)
    ensures |r| == if |s| < n then |s| else n
    ensures forall i :: 0 <= i < |r| ==> r[i] == s[i]
  {
    if |s| <= n then s else s[..n]
  }
}

=== FILE: dashboard.dfy ===
/** The live status board (`update_status_embed`): every watchlist entry is sorted into one
    of four buckets by its stored result, taken entries get an expiry note, and the
    monitoring field shows a bounded selection of the rows. Colours, emoji, the progress bar,
    percentages and the message upsert are not modelled. */
module Dashboard {
  import opened Basics
  import opened Time
  import opened Resolver
  import opened DomainChecker
  import opened Watchlist
  import opened Sweep

  /** The text after a taken domain. */
  datatype ExpiryNote =
    | ExpiresSoon(days: int)    // 1 to 29 whole days left, with a warning sign
    | ExpiresIn(days: int)      // 30 or more whole days left
    | Expired                   // no whole day left
    | NoExpiryDate              // shown as plain "taken"

  /** The expiry text for a taken domain, from the whole days left. */
  function ExpiryText(expiry: Option<Timestamp>, now: Timestamp): (note: ExpiryNote)
    ensures note.NoExpiryDate? <==> expiry.None?
    ensures note.ExpiresSoon? ==> 0 < note.days < 30
    ensures note.ExpiresIn? ==> note.days >= 30
    ensures (note.ExpiresSoon? || note.ExpiresIn?) ==> note.days == DaysUntil(expiry.value, now)
    // with a date, the whole days left decide the note
    ensures expiry.Some? ==> (note.Expired? <==> DaysUntil(expiry.value, now) <= 0)
    ensures expiry.Some? ==> (note.ExpiresSoon? <==> 0 < DaysUntil(expiry.value, now) < 30)
    ensures expiry.Some? ==> (note.ExpiresIn? <==> 30 <= DaysUntil(expiry.value, now))
  {
    match expiry
    case None => NoExpiryDate
    case Some(date) =>
      var days := DaysUntil(date, now);
      if days > 0 then (if days < 30 then ExpiresSoon(days) else ExpiresIn(days))
      else Expired
  }

  /** The same choice in seconds: a domain is shown as expired as soon as less than one full
      day is left, so one that expires later today already counts as expired. */
  lemma ExpiryTextInSeconds(date: Timestamp, now: Timestamp)
    ensures ExpiryText(Some(date), now).Expired? <==> date - now < SECONDS_PER_DAY
    ensures ExpiryText(Some(date), now).ExpiresSoon? <==>
              SECONDS_PER_DAY <= date - now < 30 * SECONDS_PER_DAY
    ensures ExpiryText(Some(date), now).ExpiresIn? <==> 30 * SECONDS_PER_DAY <= date - now
  {
    var d := DaysUntil(date, now);
    assert d <= 0 <==> date - now < SECONDS_PER_DAY;
    assert d < 30 <==> date - now < 30 * SECONDS_PER_DAY;
  }

  /** The leading marker of a row: the country flag, or the fire marker for priority domains. */
  datatype Marker = Flag(flag: string) | Fire

  /** One row of the board. */
  datatype BoardRow =
    | PriorityRow(name: string)                                  // available priority domain
    | AvailableRow(name: string, flag: string)                   // available ordinary domain
    | TakenRow(name: string, marker: Marker, note: ExpiryNote)   // taken domain
    | PendingRow(name: string, flag: string)                     // no stored result yet

  /** The row for one entry, from the stored result of its name. */
  function Classify(e: Entry, results: CheckResults, now: Timestamp): (row: BoardRow)
    ensures row.name == e.name
    ensures row.PendingRow? <==> e.name !in results
    ensures row.PriorityRow? <==> e.name in results && results[e.name].available && e.priority
    ensures row.AvailableRow? <==> e.name in results && results[e.name].available && !e.priority
    ensures row.TakenRow? <==> e.name in results && !results[e.name].available
    ensures row.TakenRow? ==>
              && row.note == ExpiryText(results[e.name].expiry, now)
              && (row.marker.Fire? <==> e.priority)
  {
    if e.name in results then
      var lookup := results[e.name];
      if lookup.available then
        (if e.priority then PriorityRow(e.name) else AvailableRow(e.name, GetDomainFlag(e.name)))
      else
        TakenRow(e.name, if e.priority then Fire else Flag(GetDomainFlag(e.name)), ExpiryText(lookup.expiry, now))
    else PendingRow(e.name, GetDomainFlag(e.name))
  }

  /** The four lists the loop builds: `priority_domains`, `available`, `taken`, `unknown`. */
  datatype Board = Board(priority: seq<BoardRow>, available: seq<BoardRow>, taken: seq<BoardRow>, unknown: seq<BoardRow>)

  /** The loop over the watchlist: each entry's row goes to the end of its bucket. */
  function BuildBoard(domains: seq<Entry>, results: CheckResults, now: Timestamp): (b: Board)
    ensures |b.priority| + |b.available| + |b.taken| + |b.unknown| == |domains|
    ensures forall r :: r in b.priority ==> r.PriorityRow?
    ensures forall r :: r in b.available ==> r.AvailableRow?
    ensures forall r :: r in b.taken ==> r.TakenRow?
    ensures forall r :: r in b.unknown ==> r.PendingRow?
  {
    if domains == [] then Board([], [], [], [])
    else
      var row := Classify(domains[0], results, now);
      var rest := BuildBoard(domains[1..], results, now);
      match row
      case PriorityRow(_) => rest.(priority := [row] + rest.priority)
      case AvailableRow(_, _) => rest.(available := [row] + rest.available)
      case TakenRow(_, _, _) => rest.(taken := [row] + rest.taken)
      case PendingRow(_, _) => rest.(unknown := [row] + rest.unknown)
  }

  /** The rows of all entries, in watchlist order. */
  function AllRows(domains: seq<Entry>, results: CheckResults, now: Timestamp): (rows: seq<BoardRow>)
    ensures |rows| == |domains|
    ensures forall i :: 0 <= i < |domains| ==> rows[i] == Classify(domains[i], results, now)
  {
    if domains == [] then []
    else [Classify(domains[0], results, now)] + AllRows(domains[1..], results, now)
  }

  predicate IsPriorityRow(r: BoardRow) { r.PriorityRow? }
  predicate IsAvailableRow(r: BoardRow) { r.AvailableRow? }
  predicate IsTakenRow(r: BoardRow) { r.TakenRow? }
  predicate IsPendingRow(r: BoardRow) { r.PendingRow? }

  /** Every entry lands in exactly one bucket: each available bucket is the subsequence of all
      rows of its kind, in watchlist order (with `BoardPartitionRest` for the other two). */
  lemma {:induction false} BoardPartition(domains: seq<Entry>, results: CheckResults, now: Timestamp)
    ensures BuildBoard(domains, results, now).priority == Filter(AllRows(domains, results, now), IsPriorityRow)
    ensures BuildBoard(domains, results, now).available == Filter(AllRows(domains, results, now), IsAvailableRow)
  {
    if domains != [] {
      var row := Classify(domains[0], results, now);
      var rows := AllRows(domains, results, now);
      var rest := AllRows(domains[1..], results, now);
      assert rows[0] == row && rows[1..] == rest;
      BoardPartition(domains[1..], results, now);
      assert Filter(rows, IsPriorityRow) == (if row.PriorityRow? then [row] else []) + Filter(rest, IsPriorityRow);
      assert Filter(rows, IsAvailableRow) == (if row.AvailableRow? then [row] else []) + Filter(rest, IsAvailableRow);
    }
  }

  /** The taken and pending buckets, likewise. */
  lemma {:induction false} BoardPartitionRest(domains: seq<Entry>, results: CheckResults, now: Timestamp)
    ensures BuildBoard(domains, results, now).taken == Filter(AllRows(domains, results, now), IsTakenRow)
    ensures BuildBoard(domains, results, now).unknown == Filter(AllRows(domains, results, now), IsPendingRow)
  {
    if domains != [] {
      var row := Classify(domains[0], results, now);
      var rows := AllRows(domains, results, now);
      var rest := AllRows(domains[1..], results, now);
      assert rows[0] == row && rows[1..] == rest;
      BoardPartitionRest(domains[1..], results, now);
      assert Filter(rows, IsTakenRow) == (if row.TakenRow? then [row] else []) + Filter(rest, IsTakenRow);
      assert Filter(rows, IsPendingRow) == (if row.PendingRow? then [row] else []) + Filter(rest, IsPendingRow);
    }
  }

  /** The statistics figures: `available_count` counts both available buckets, and "not
      checked" is exactly the entries without a stored result. */
  lemma {:induction false} BoardCounts(domains: seq<Entry>, results: CheckResults, now: Timestamp)
    ensures
      var b := BuildBoard(domains, results, now);
      && |b.priority| + |b.available| == Count(domains, StoredAvailable(results))
      && |b.unknown| == Count(domains, Unchecked(results))
      && |b.taken| == |domains| - Count(domains, StoredAvailable(results)) - Count(domains, Unchecked(results))
  {
    if domains != [] {
      BoardCounts(domains[1..], results, now);
    }
  }

  /** The figures of the statistics field; absent when the watchlist is empty. */
  datatype BoardStats = BoardStats(total: nat, availableCount: nat, takenCount: nat, pendingCount: nat)

  /** The visible part of the board. */
  datatype Layout = Layout(
    priorityField: Option<seq<BoardRow>>,   // the priority field, present only with priority rows
    monitoring: seq<BoardRow>,              // the lines of the monitoring field
    placeholder: bool,                      // the field shows "no domains configured" instead
    stats: Option<BoardStats>)

  /** How many rows of each kind the fields show. */
  const PRIORITY_SHOWN: nat := 5
  const ROWS_SHOWN: nat := 6
  const PENDING_SHOWN: nat := 3

  /** The field assembly: up to five priority rows in their own field; the first six available
      rows only when there is no priority row; the first six taken rows; the first three pending
      rows only while fewer than six rows are available or taken; the placeholder when the
      monitoring field is empty. */
  function BoardLayout(b: Board, total: nat): (l: Layout)
    ensures l.priorityField.Some? <==> b.priority != []
    ensures l.priorityField.Some? ==> l.priorityField.value == Take(b.priority, PRIORITY_SHOWN)
    ensures l.placeholder <==> l.monitoring == []
    ensures |l.monitoring| <= ROWS_SHOWN + ROWS_SHOWN + PENDING_SHOWN
    ensures forall r :: r in l.monitoring ==> r in b.available || r in b.taken || r in b.unknown
    ensures b.priority != [] ==> forall r :: r in l.monitoring ==> r in b.taken || r in b.unknown
    // the first six taken rows are always shown, the first six available ones without priority rows
    ensures forall r :: r in Take(b.taken, ROWS_SHOWN) ==> r in l.monitoring
    ensures b.priority == [] ==> forall r :: r in Take(b.available, ROWS_SHOWN) ==> r in l.monitoring
    // the first three pending rows are shown exactly while fewer than six rows are available or taken
    ensures b.unknown != [] && |b.available| + |b.taken| < ROWS_SHOWN ==>
              forall r :: r in Take(b.unknown, PENDING_SHOWN) ==> r in l.monitoring
    ensures !(b.unknown != [] && |b.available| + |b.taken| < ROWS_SHOWN) ==>
              forall r :: r in l.monitoring ==> r in b.available || r in b.taken
    // and nothing beyond those first rows is ever shown
    ensures forall r :: r in l.monitoring ==>
              r in Take(b.available, ROWS_SHOWN) || r in Take(b.taken, ROWS_SHOWN) || r in Take(b.unknown, PENDING_SHOWN)
    ensures l.stats.Some? <==> total > 0
    ensures l.stats.Some? ==>
              l.stats.value == BoardStats(total, |b.available| + |b.priority|, |b.taken|, |b.unknown|)
  {
    var shownAvailable := if b.priority == [] then Take(b.available, ROWS_SHOWN) else [];
    var shownPending :=
      if b.unknown != [] && |b.available| + |b.taken| < ROWS_SHOWN then Take(b.unknown, PENDING_SHOWN) else [];
    var lines := shownAvailable + Take(b.taken, ROWS_SHOWN) + shownPending;
    Layout(
      if b.priority != [] then Some(Take(b.priority, PRIORITY_SHOWN)) else None,
      lines,
      lines == [],
      if total > 0 then Some(BoardStats(total, |b.available| + |b.priority|, |b.taken|, |b.unknown|)) else None)
  }

  /** The placeholder appears exactly when nothing is taken, the available rows are hidden or
      absent, and the pending rows are absent or suppressed. */
  lemma PlaceholderCondition(b: Board, total: nat)
    ensures BoardLayout(b, total).placeholder <==>
              && b.taken == []
              && (b.priority != [] || b.available == [])
              && (b.unknown == [] || |b.available| >= ROWS_SHOWN)
  {
  }

  /** `update_status_embed` for a watchlist and the stored results at time `now`. */
  function StatusBoard(wl: Watchlist, results: CheckResults, now: Timestamp): (l: Layout)
    ensures l.stats.Some? <==> wl.domains != []
    // the figures count the watchlist's entries by their stored result
    ensures l.stats.Some? ==>
              && l.stats.value.total == |wl.domains|
              && l.stats.value.availableCount == Count(wl.domains, StoredAvailable(results))
              && l.stats.value.pendingCount == Count(wl.domains, Unchecked(results))
              && l.stats.value.availableCount + l.stats.value.takenCount + l.stats.value.pendingCount == |wl.domains|
  {
    BoardCounts(wl.domains, results, now);
    BoardLayout(BuildBoard(wl.domains, results, now), |wl.domains|)
  }

  /** For a non-empty watchlist the "no domains configured" placeholder can only appear when
      the priority field is shown: without priority rows some row always reaches the field. */
  lemma {:induction false} PlaceholderNeedsPriority(wl: Watchlist, results: CheckResults, now: Timestamp)
    requires wl.domains != []
    requires StatusBoard(wl, results, now).placeholder
    ensures BuildBoard(wl.domains, results, now).priority != []
  {
    var b := BuildBoard(wl.domains, results, now);
    PlaceholderCondition(b, |wl.domains|);
  }

  /** A watchlist whose only entry is an available priority domain still shows the placeholder
      text in the monitoring field, next to the priority field that lists it. */
  lemma PlaceholderWithOnePriorityDomain(now: Timestamp)
    ensures
      var wl := Watchlist([Entry("test.de", true, Some(true))], Some(now), Stats(1, 0, None));
      var l := StatusBoard(wl, map["test.de" := Lookup(true, None)], now);
      && l.placeholder
      && l.priorityField == Some([PriorityRow("test.de")])
      && l.stats == Some(BoardStats(1, 1, 0, 0))
  {
    var e := Entry("test.de", true, Some(true));
    var results := map["test.de" := Lookup(true, None)];
    assert BuildBoard([e], results, now) == Board([PriorityRow("test.de")], [], [], []) by {
      assert [e][1..] == [];
    }
  }
}

=== FILE: engine.dfy ===
/** The bot's state between events: the stored watchlist and the in-memory results of the
    last sweep. Commands and daily sweeps are the only events that change it, and together
    they keep the invariant the weekly digest relies on. Status-board refreshes and reports
    only read the state. */
module Engine {
  import opened Basics
  import opened Time
  import opened Resolver
  import opened Watchlist
  import opened Sweep
  import opened Weekly

  datatype State = State(wl: Watchlist, results: CheckResults)

  /** An event that changes the state. */
  datatype Event =
    | CommandEvent(action: Option<string>, domain: Option<string>, priorityWord: string)
    | SweepEvent(net: Network, now: Timestamp)

  /** Each entry's lookup outcome against `net`, in watchlist order. */
  function Outcomes(domains: seq<Entry>, net: Network): (outcomes: seq<Resolution>)
    ensures |outcomes| == |domains|
    ensures forall i :: 0 <= i < |domains| ==> outcomes[i] == CheckDomainAvailability(net, domains[i].name)
  {
    if domains == [] then [] else [CheckDomainAvailability(net, domains[0].name)] + Outcomes(domains[1..], net)
  }

  function Step(s: State, ev: Event): State
  {
    match ev
    case CommandEvent(action, domain, word) => State(Command(s.wl, action, domain, word).0, s.results)
    case SweepEvent(net, now) =>
      var run := DailyCheck(s.wl, s.results, Outcomes(s.wl.domains, net), now);
      State(run.watchlist, run.results)
  }

  function Run(s: State, events: seq<Event>): State
    decreases |events|
  {
    if events == [] then s else Run(Step(s, events[0]), events[1..])
  }

  /** The state the bot starts with: a watchlist with unique names and no results yet. */
  predicate Boot(s: State)
  {
    UniqueNames(s.wl.domains) && s.results == map[]
  }

  predicate Invariant(s: State)
  {
    UniqueNames(s.wl.domains) && Consistent(s.wl.domains, s.results)
  }

  lemma BootInvariant(s: State)
    requires Boot(s)
    ensures Invariant(s)
  {
  }

  /** The seed watchlist starts a valid state. */
  lemma SeedBoots()
    ensures Boot(State(SEED, map[]))
  {
  }

  /** A command keeps the invariant: it adds an entry with no status, or drops entries. */
  lemma CommandKeepsInvariant(s: State, action: Option<string>, domain: Option<string>, word: string)
    requires Invariant(s)
    ensures Invariant(Step(s, CommandEvent(action, domain, word)))
  {
  }

  /** A sweep keeps the invariant, whatever its lookups answer: an entry that answered stores
      the same availability as its result, and one that raised keeps both its status and its
      result. */
  lemma {:induction false} SweepKeepsInvariant(s: State, outcomes: seq<Resolution>, now: Timestamp)
    requires Invariant(s)
    requires |outcomes| == |s.wl.domains|
    ensures
      var run := DailyCheck(s.wl, s.results, outcomes, now);
      Invariant(State(run.watchlist, run.results))
  {
    var domains := s.wl.domains;
    var run := DailyCheck(s.wl, s.results, outcomes, now);
    var after := run.watchlist.domains;
    SweepStatuses(domains, outcomes, s.results);
    SweepResults(domains, outcomes, s.results);
    SweepRecordsAnswers(domains, outcomes, s.results);
    forall i | 0 <= i < |after| && after[i].name in run.results
      ensures after[i].lastStatus.None? || after[i].lastStatus == Some(run.results[after[i].name].available)
    {
      var n := domains[i].name;
      if !outcomes[i].Answered? {
        assert !Answers(domains, outcomes, n);
      }
    }
  }

  lemma StepKeepsInvariant(s: State, ev: Event)
    requires Invariant(s)
    ensures Invariant(Step(s, ev))
  {
    match ev
    case CommandEvent(action, domain, word) => CommandKeepsInvariant(s, action, domain, word);
    case SweepEvent(net, now) => SweepKeepsInvariant(s, Outcomes(s.wl.domains, net), now);
  }

  /** Every state reachable from a boot state satisfies the invariant. */
  lemma {:induction false} ReachableInvariant(s: State, events: seq<Event>)
    requires Invariant(s)
    ensures Invariant(Run(s, events))
    decreases |events|
  {
    if events != [] {
      StepKeepsInvariant(s, events[0]);
      ReachableInvariant(Step(s, events[0]), events[1..]);
    }
  }

  /** So the weekly digest never reports a change in any reachable state. */
  lemma WeeklyNeverReportsChanges(boot: State, events: seq<Event>, now: Timestamp)
    requires Boot(boot)
    ensures WeeklyReport(Run(boot, events).wl, Run(boot, events).results, now).statusChanges == 0
    ensures !WeeklyReport(Run(boot, events).wl, Run(boot, events).results, now).changesField
  {
    ReachableInvariant(boot, events);
    WeeklyQuiet(Run(boot, events).wl, Run(boot, events).results, now);
  }

  predicate IsSweep(ev: Event) { ev.SweepEvent? }

  /** The check counter counts the sweeps, and the change counter never goes down. */
  lemma {:induction false} Counters(s: State, events: seq<Event>)
    ensures Run(s, events).wl.stats.totalChecks == s.wl.stats.totalChecks + Count(events, IsSweep)
    ensures Run(s, events).wl.stats.statusChanges >= s.wl.stats.statusChanges
    ensures Run(s, events).wl.stats.lastAlert == s.wl.stats.lastAlert
    decreases |events|
  {
    if events != [] {
      Counters(Step(s, events[0]), events[1..]);
    }
  }
}

=== FILE: interactive.dfy ===
/** The on-demand `!domaincheck <domain>` command: the full TLD fan-out for the name, the
    verdict for the "main" domain the user meant, the alternatives split into available
    and taken, and the footer counts. Message layout and emoji are not modelled. */
module InteractiveCheck {
  import opened Basics
  import opened Time
  import opened Resolver
  import opened DomainChecker

  /** How many alternatives of each kind the reply lists. */
  const MAX_LISTED: nat := 8

  /** The "main domain" field: shown as available only when the probe said `True`;
      an unknown probe (`None`) is shown as taken, since `None` is falsy. */
  datatype MainLine = MainLine(shownAvailable: bool, expiry: Option<Timestamp>, daysLeft: Option<int>)

  datatype CheckReply =
    | MissingDomain    // no domain argument: the usage error is sent instead
    | Report(
        mainDomain: string,
        main: Option<MainLine>,                               // absent when the main domain was not probed
        availableShown: seq<string>,                          // first 8 available alternatives
        takenShown: seq<(string, Option<Timestamp>)>,         // first 8 taken alternatives, with expiry
        checked: nat,                                         // footer: number of probed domains
        availableCount: nat,                                  // footer: probes that said available
        takenCount: nat)                                      // footer: the rest, unknown probes included

  /** The domain the user meant: a dotted argument as typed, a bare name under the first TLD. */
  function MainDomain(input: string): (main: string)
    ensures '.' in main
    ensures '.' !in input ==> main == BaseName(input) + TLDS[0]
    ensures '.' in input ==> main == input
  {
    if '.' in input then input
    else
      assert |BaseName(input)| == |input|;
      input + ".com"
  }

  /** The alternatives reported as available: probes other than the main domain that said `True`,
      in result order. */
  function AvailableAlternatives(probes: seq<Probe>, main: string): (r: seq<string>)
    ensures forall p :: p in probes && p.domain != main && p.result.available == Some(true) ==> p.domain in r
    ensures forall d :: d in r ==> d != main && exists p :: p in probes && p.domain == d && p.result.available == Some(true)
  {
    if probes == [] then []
    else
      var p := probes[0];
      (if p.domain != main && p.result.available == Some(true) then [p.domain] else [])
        + AvailableAlternatives(probes[1..], main)
  }

  /** The alternatives reported as taken, with their expiry: probes other than the main domain
      that said `False`, in result order. Unknown probes are skipped. */
  function TakenAlternatives(probes: seq<Probe>, main: string): (r: seq<(string, Option<Timestamp>)>)
    ensures forall p :: p in probes && p.domain != main && p.result.available == Some(false) ==>
              (p.domain, p.result.expiry) in r
    ensures forall t :: t in r ==> t.0 != main && Probe(t.0, CheckResult(Some(false), t.1)) in probes
  {
    if probes == [] then []
    else
      var p := probes[0];
      (if p.domain != main && p.result.available == Some(false) then [(p.domain, p.result.expiry)] else [])
        + TakenAlternatives(probes[1..], main)
  }

  predicate SaidAvailable(p: Probe) { p.result.available == Some(true) }

  predicate NotSaidAvailable(p: Probe) { p.result.available != Some(true) }

  /** The main domain's line, when the main domain is one of the result keys. */
  function MainLineFor(results: map<string, CheckResult>, main: string, now: Timestamp): (line: Option<MainLine>)
    ensures line.Some? <==> main in results
    ensures line.Some? ==> (line.value.shownAvailable <==> results[main].available == Some(true))
    // the expiry line carries the probe's date and its whole days left, and only with a date
    ensures line.Some? ==> line.value.expiry == results[main].expiry
    ensures line.Some? ==> (line.value.daysLeft.Some? <==> results[main].expiry.Some?)
    ensures line.Some? && line.value.daysLeft.Some? ==>
              line.value.daysLeft.value == DaysUntil(results[main].expiry.value, now)
  {
    if main in results then
      var r := results[main];
      Some(MainLine(r.available == Some(true), r.expiry,
                    if r.expiry.Some? then Some(DaysUntil(r.expiry.value, now)) else None))
    else None
  }

  /** The command, given the argument (empty when missing), the network and the current time. */
  function CheckDomain(input: string, net: Network, now: Timestamp): (reply: CheckReply)
    ensures input == [] <==> reply.MissingDomain?
    ensures reply.Report? ==>
              && reply.mainDomain == MainDomain(input)
              && |reply.availableShown| <= MAX_LISTED
              && |reply.takenShown| <= MAX_LISTED
              && reply.availableCount + reply.takenCount == reply.checked
    // the main line and both lists are drawn from the fan-out's probes
    ensures reply.Report? ==>
              && reply.main == MainLineFor(ResultsMap(ProbeAll(input, net)), reply.mainDomain, now)
              && reply.availableShown == Take(AvailableAlternatives(ProbeAll(input, net), reply.mainDomain), MAX_LISTED)
              && reply.takenShown == Take(TakenAlternatives(ProbeAll(input, net), reply.mainDomain), MAX_LISTED)
  {
    if input == [] then MissingDomain
    else
      var probes := ProbeAll(input, net);
      var results := ResultsMap(probes);
      ExpansionSize(input, net);
      var main := MainDomain(input);
      var available := Count(probes, SaidAvailable);
      Report(main, MainLineFor(results, main, now),
             Take(AvailableAlternatives(probes, main), MAX_LISTED),
             Take(TakenAlternatives(probes, main), MAX_LISTED),
             |results|, available, |results| - available)
  }

  /** A name is one of its own expansions exactly when everything from its first dot on
      is a listed TLD. */
  lemma IsExpansion(input: string)
    ensures (exists i :: 0 <= i < |TLDS| && input == BaseName(input) + TLDS[i])
              <==> input[|BaseName(input)|..] in TLDS
  {
    var base := BaseName(input);
    assert input == base + input[|base|..];
    if input[|base|..] in TLDS {
      var i :| 0 <= i < |TLDS| && TLDS[i] == input[|base|..];
      assert input == base + TLDS[i];
    }
    forall i | 0 <= i < |TLDS| && input == base + TLDS[i]
      ensures input[|base|..] in TLDS
    {
      AppendCancel(base, input[|base|..], TLDS[i]);
    }
  }

  /** The main domain gets its own line exactly when it is one of the expanded domains:
      always for a bare name (it becomes name.com), and for a dotted name only when
      everything from its first dot on is one of the listed TLDs. */
  lemma {:induction false} MainDomainListed(input: string, net: Network, now: Timestamp)
    requires input != []
    ensures CheckDomain(input, net, now).main.Some? <==>
              '.' !in input || input[|BaseName(input)|..] in TLDS
  {
    var base := BaseName(input);
    var main := MainDomain(input);
    var results := ResultsMap(ProbeAll(input, net));
    ExpansionResults(input, net);
    assert CheckDomain(input, net, now).main.Some? <==> main in results;
    assert main in results <==> exists i :: 0 <= i < |TLDS| && main == base + TLDS[i];
    if '.' !in input {
      assert base == input;
      assert main == base + TLDS[0];
    } else {
      IsExpansion(input);
    }
  }

  /** The footer always reports all 19 expanded domains, and its "taken" figure is every probe
      that did not say available, including the probes that failed. */
  lemma {:induction false} FooterCounts(input: string, net: Network, now: Timestamp)
    requires input != []
    ensures CheckDomain(input, net, now).checked == |TLDS|
    ensures CheckDomain(input, net, now).availableCount == Count(ProbeAll(input, net), SaidAvailable)
    ensures CheckDomain(input, net, now).takenCount == Count(ProbeAll(input, net), NotSaidAvailable)
  {
    ExpansionResults(input, net);
    CountComplement(ProbeAll(input, net), SaidAvailable, NotSaidAvailable);
  }
}

=== FILE: notify.dfy ===
/** `send_change_notifications` and the decision in `daily_check` to call it: the changes of
    one sweep are split into one batched priority alert and one batched summary of the other
    changes. Delivery, embeds and the role mention are not modelled; whether the report
    channel was found is an input. */
module Notify {
  import opened Basics
  import opened Time
  import opened Resolver
  import opened Watchlist
  import opened Sweep

  /** The two kinds of message the dispatcher sends. */
  datatype Notification =
    | PriorityAlertBatch(domains: seq<string>)                  // one field per alert
    | ChangeSummary(reported: nat, listed: seq<ChangeEvent>)    // "N changes detected" and the listed ones

  /** The domain of each change, in order. */
  function DomainsOf(changes: seq<ChangeEvent>): (ds: seq<string>)
    ensures |ds| == |changes|
    ensures forall i :: 0 <= i < |changes| ==> ds[i] == changes[i].domain
  {
    if changes == [] then [] else [changes[0].domain] + DomainsOf(changes[1..])
  }

  /** `[change for change in changes if change not in priority_alerts]`, membership by value. */
  function NotAmong(changes: seq<ChangeEvent>, alerts: seq<ChangeEvent>): (r: seq<ChangeEvent>)
    ensures forall c :: c in r ==> c in changes && c !in alerts
  {
    if changes == [] then []
    else (if changes[0] !in alerts then [changes[0]] else []) + NotAmong(changes[1..], alerts)
  }

  /** `send_change_notifications(changes, priority_alerts)`. */
  function SendChangeNotifications(changes: seq<ChangeEvent>, alerts: seq<ChangeEvent>, channelFound: bool)
    : (sent: seq<Notification>)
    ensures !channelFound ==> sent == []
    ensures |sent| <= 2
    ensures forall k :: 0 <= k < |sent| && sent[k].ChangeSummary? ==> sent[k].reported == |changes|
  {
    if !channelFound then []
    else
      (if alerts != [] then [PriorityAlertBatch(DomainsOf(alerts))] else [])
      + (if |changes| > |alerts| then [ChangeSummary(|changes|, NotAmong(changes, alerts))] else [])
  }

  /** What the sweep sends: nothing at all without changes. */
  function DailyNotifications(run: DailyRun, channelFound: bool): (sent: seq<Notification>)
    ensures run.changes == [] ==> sent == []
  {
    if run.changes == [] then [] else SendChangeNotifications(run.changes, run.priorityAlerts, channelFound)
  }

  /** When the alerts are the priority changes, value membership in the alerts is the same as
      being a priority alert, so the summary lists exactly the ordinary changes. */
  lemma {:induction false} NotAmongAlerts(changes: seq<ChangeEvent>, alerts: seq<ChangeEvent>)
    requires forall c :: c in changes ==> (c in alerts <==> IsPriorityAlert(c))
    ensures NotAmong(changes, alerts) == Filter(changes, IsOrdinaryChange)
  {
    if changes != [] {
      NotAmongAlerts(changes[1..], alerts);
    }
  }

  /** There are more changes than priority alerts exactly when some change is ordinary. */
  lemma MoreChangesThanAlerts(changes: seq<ChangeEvent>)
    ensures |changes| > |Filter(changes, IsPriorityAlert)| <==>
              exists i :: 0 <= i < |changes| && IsOrdinaryChange(changes[i])
    ensures |Filter(changes, IsPriorityAlert)| > 0 <==>
              exists i :: 0 <= i < |changes| && IsPriorityAlert(changes[i])
  {
    FilterLength(changes, IsPriorityAlert);
    CountComplement(changes, IsPriorityAlert, IsOrdinaryChange);
    CountPositive(changes, IsOrdinaryChange);
    CountPositive(changes, IsPriorityAlert);
  }

  /** The dispatch, stated without the `len` comparison and the value-membership test: with the
      channel present, a priority batch naming every priority alert is sent exactly when there is
      one, and a summary listing exactly the other changes, in order, is sent exactly when there
      is one of those. No change is listed in both. */
  lemma {:induction false} DispatchPartition(changes: seq<ChangeEvent>)
    ensures
      var alerts := Filter(changes, IsPriorityAlert);
      var ordinary := Filter(changes, IsOrdinaryChange);
      && SendChangeNotifications(changes, alerts, true)
           == (if exists i :: 0 <= i < |changes| && IsPriorityAlert(changes[i])
               then [PriorityAlertBatch(DomainsOf(alerts))] else [])
              + (if exists i :: 0 <= i < |changes| && IsOrdinaryChange(changes[i])
                 then [ChangeSummary(|changes|, ordinary)] else [])
      && (forall c :: c in ordinary ==> c !in alerts)
  {
    var alerts := Filter(changes, IsPriorityAlert);
    MoreChangesThanAlerts(changes);
    assert forall c :: c in changes ==> (c in alerts <==> IsPriorityAlert(c));
    NotAmongAlerts(changes, alerts);
  }

  /** The sweep's own notifications follow the same partition, and nothing is sent when the
      sweep found no change. */
  lemma DailyDispatch(wl: Watchlist, results: CheckResults, outcomes: seq<Resolution>, now: Timestamp)
    requires |outcomes| == |wl.domains|
    ensures
      var run := DailyCheck(wl, results, outcomes, now);
      && (run.changes == [] ==> DailyNotifications(run, true) == [])
      && (run.changes != [] ==>
            DailyNotifications(run, true)
              == (if exists i :: 0 <= i < |run.changes| && IsPriorityAlert(run.changes[i])
                  then [PriorityAlertBatch(DomainsOf(run.priorityAlerts))] else [])
                 + (if exists i :: 0 <= i < |run.changes| && IsOrdinaryChange(run.changes[i])
                    then [ChangeSummary(|run.changes|, Filter(run.changes, IsOrdinaryChange))] else []))
  {
    DispatchPartition(DailyCheck(wl, results, outcomes, now).changes);
  }

  /** Two registered domains, "a.com" and the priority domain "b.io", both found available:
      two changes, one priority alert for b.io and the change counter up by two ... */
  lemma TwoDomainsFreed(now: Timestamp)
    ensures
      var wl := Watchlist([Entry("a.com", false, Some(false)), Entry("b.io", true, Some(false))],
                          None, Stats(0, 0, None));
      var run := DailyCheck(wl, map[], [Answered(Lookup(true, None)), Answered(Lookup(true, None))], now);
      && run.changes == [ChangeEvent("a.com", false, true, false, None), ChangeEvent("b.io", false, true, true, None)]
      && run.priorityAlerts == [ChangeEvent("b.io", false, true, true, None)]
      && run.watchlist.stats.statusChanges == 2
  {
    var wl := Watchlist([Entry("a.com", false, Some(false)), Entry("b.io", true, Some(false))],
                        None, Stats(0, 0, None));
    var outcomes := [Answered(Lookup(true, None)), Answered(Lookup(true, None))];
    var a := ChangeEvent("a.com", false, true, false, None);
    var b := ChangeEvent("b.io", false, true, true, None);
    SweepChanges(wl.domains, outcomes, map[]);
    assert Detections(wl.domains, outcomes) == [Some(a), Some(b)];
    assert Present([Some(a), Some(b)]) == [a, b] by {
      assert [Some(a), Some(b)][1..] == [Some(b)];
    }
    assert Filter([a, b], IsPriorityAlert) == [b] by {
      assert [a, b][1..] == [b];
    }
  }

  /** ... and then two messages: the alert naming b.io and the summary listing a.com. */
  lemma TwoDomainsFreedMessages(run: DailyRun)
    requires run.changes == [ChangeEvent("a.com", false, true, false, None), ChangeEvent("b.io", false, true, true, None)]
    requires run.priorityAlerts == [ChangeEvent("b.io", false, true, true, None)]
    ensures DailyNotifications(run, true)
              == [PriorityAlertBatch(["b.io"]), ChangeSummary(2, [ChangeEvent("a.com", false, true, false, None)])]
  {
    var a := ChangeEvent("a.com", false, true, false, None);
    var b := ChangeEvent("b.io", false, true, true, None);
    assert NotAmong([a, b], [b]) == [a] by {
      assert a != b;
      assert [a, b][1..] == [b];
      assert NotAmong([b], [b]) == [] by {
        assert [b][1..] == [];
      }
    }
    assert DomainsOf([b]) == ["b.io"];
  }
}

=== FILE: resolver.dfy ===
/** The lookup of one fully qualified domain (`DomainChecker.check_domain_availability`):
    a WHOIS query first, and a host-address resolution when the WHOIS step raises.
    Both external calls are inputs: the model receives what each of them answered. */
module Resolver {
  import opened Basics
  import opened Time

  /** The `expiration_date` attribute of a WHOIS entry. */
  datatype ExpirationField =
    | NoExpirationAttribute                   // `hasattr` is false
    | SingleExpiration(date: Option<Timestamp>) // a scalar, possibly `None`
    | ExpirationList(dates: seq<Option<Timestamp>>) // a list; the first element is used, `None` included

  /** What `whois.whois(domain)` did. An empty (falsy) response is an entry
      whose `domain_name` is missing. */
  datatype WhoisAnswer =
    | WhoisRaised
    | WhoisEntry(hasDomainName: bool, expiration: ExpirationField)

  /** What `socket.gethostbyname(domain)` did. */
  datatype HostLookup =
    | HostResolved      // an address came back
    | HostNotFound      // `socket.gaierror`, the only exception the fallback catches
    | HostLookupError   // any other exception; it escapes the resolver

  /** The `(is_available, expiry_date)` pair the resolver returns. */
  datatype Lookup = Lookup(available: bool, expiry: Option<Timestamp>)

  /** The resolver either returns a pair or lets an exception escape. */
  datatype Resolution = Answered(lookup: Lookup) | Raised

  /** The external services, seen as total functions from a domain to their answer. */
  datatype Network = Network(whois: string -> WhoisAnswer, host: string -> HostLookup)

  /** The WHOIS step ends in the `except` branch: the query itself raised, or a record
      listed its expiry dates as an empty list, so that `expiration_date[0]` raised. */
  predicate FallsBack(whois: WhoisAnswer)
  {
    || whois.WhoisRaised?
    || (whois.hasDomainName && whois.expiration.ExpirationList? && whois.expiration.dates == [])
  }

  /** The expiry a registered WHOIS record yields: the scalar itself, or the first listed date. */
  function RecordExpiry(field: ExpirationField): Option<Timestamp>
  {
    match field
    case NoExpirationAttribute => None
    case SingleExpiration(date) => date
    case ExpirationList(dates) => if dates == [] then None else dates[0]
  }

  /** The `except` branch: resolve the host name; an address means registered,
      `gaierror` means available, anything else propagates. */
  function HostFallback(host: HostLookup): Resolution
  {
    match host
    case HostResolved => Answered(Lookup(false, None))
    case HostNotFound => Answered(Lookup(true, None))
    case HostLookupError => Raised
  }

  /** `check_domain_availability` for one domain, given what WHOIS and the host lookup answered. */
  function Resolve(whois: WhoisAnswer, host: HostLookup): (r: Resolution)
    // It raises exactly when WHOIS fails and the fallback hits an exception other than gaierror.
    ensures r.Raised? <==> FallsBack(whois) && host.HostLookupError?
    // Available means: a WHOIS answer without a domain name, or a failed WHOIS and an unknown host.
    ensures r.Answered? ==>
              (r.lookup.available <==>
                 (whois.WhoisEntry? && !whois.hasDomainName) || (FallsBack(whois) && host.HostNotFound?))
    // An available domain never carries an expiry date.
    ensures r.Answered? && r.lookup.available ==> r.lookup.expiry.None?
    // An expiry date only ever comes from a WHOIS record, and it is the record's first date.
    ensures r.Answered? && r.lookup.expiry.Some? ==>
              whois.WhoisEntry? && whois.hasDomainName && !FallsBack(whois)
              && r.lookup.expiry == RecordExpiry(whois.expiration)
    // When WHOIS answers, the lookup never raises.
    ensures !FallsBack(whois) ==> r.Answered?
  {
    match whois
    case WhoisRaised => HostFallback(host)
    case WhoisEntry(hasDomainName, expiration) =>
      if !hasDomainName then Answered(Lookup(true, None))
      else match expiration
        case NoExpirationAttribute => Answered(Lookup(false, None))
        case SingleExpiration(date) => Answered(Lookup(false, date))
        case ExpirationList(dates) =>
          if dates == [] then HostFallback(host)   // IndexError inside the `try`
          else Answered(Lookup(false, dates[0]))
  }

  /** `check_domain_availability(domain)` against a given network. */
  function CheckDomainAvailability(net: Network, domain: string): Resolution
  {
    Resolve(net.whois(domain), net.host(domain))
  }

  /** The registered outcome: whenever WHOIS returns a record with a domain name and at least
      one expiry value, the domain is taken and the first expiry value is reported. */
  lemma RegisteredRecord(date: Timestamp, rest: seq<Option<Timestamp>>, host: HostLookup)
    ensures Resolve(WhoisEntry(true, ExpirationList([Some(date)] + rest)), host) == Answered(Lookup(false, Some(date)))
    ensures Resolve(WhoisEntry(true, SingleExpiration(Some(date))), host) == Answered(Lookup(false, Some(date)))
    ensures Resolve(WhoisEntry(true, ExpirationList([None] + rest)), host) == Answered(Lookup(false, None))
  {
  }

  /** When WHOIS answers without raising, the host lookup plays no part in the outcome. */
  lemma WhoisAnswerIgnoresHost(whois: WhoisAnswer, host: HostLookup, other: HostLookup)
    requires !FallsBack(whois)
    ensures Resolve(whois, host) == Resolve(whois, other)
  {
  }

  /** The three outcomes of a failed WHOIS query. */
  lemma WhoisFailure(host: HostLookup)
    ensures host.HostResolved? ==> Resolve(WhoisRaised, host) == Answered(Lookup(false, None))
    ensures host.HostNotFound? ==> Resolve(WhoisRaised, host) == Answered(Lookup(true, None))
    ensures host.HostLookupError? ==> Resolve(WhoisRaised, host) == Raised
  {
  }
}

=== FILE: sweep.dfy ===
/** The daily sweep (`daily_check`): every watchlist entry is looked up once, in order; a
    lookup that raises is skipped for this round; a successful one overwrites the entry's last
    status and the in-memory check results, and is a change when the previous status was
    known and differs. The sweep then counts itself and its changes in the statistics. */
module Sweep {
  import opened Basics
  import opened Time
  import opened Resolver
  import opened Watchlist

  /** `last_check_results`: the latest successful lookup per domain name. */
  type CheckResults = map<string, Lookup>

  /** The entries that have no stored result yet. */
  function Unchecked(results: CheckResults): Entry -> bool
  {
    (e: Entry) => e.name !in results
  }

  /** The entries whose stored result says available. */
  function StoredAvailable(results: CheckResults): Entry -> bool
  {
    (e: Entry) => e.name in results && results[e.name].available
  }

  /** The entries whose stored result says taken. */
  function StoredTaken(results: CheckResults): Entry -> bool
  {
    (e: Entry) => e.name in results && !results[e.name].available
  }

  /** One detected transition, as collected in `changes`. */
  datatype ChangeEvent = ChangeEvent(
    domain: string, oldStatus: bool, newStatus: bool, priority: bool, expiry: Option<Timestamp>)

  /** A change that also goes into `priority_alerts`: a priority domain that became available. */
  predicate IsPriorityAlert(c: ChangeEvent)
  {
    c.priority && c.newStatus
  }

  /** A change that is reported only in the ordinary batch. */
  predicate IsOrdinaryChange(c: ChangeEvent)
  {
    !IsPriorityAlert(c)
  }

  /** The change one lookup reveals for one entry, if any. */
  function DetectChange(e: Entry, outcome: Resolution): (c: Option<ChangeEvent>)
    // a change exactly when the lookup answered and a known previous status differs from it
    ensures c.Some? <==>
              outcome.Answered? && e.lastStatus.Some? && e.lastStatus != Some(outcome.lookup.available)
    ensures c.Some? ==>
              && c.value.domain == e.name
              && c.value.priority == e.priority
              && Some(c.value.oldStatus) == e.lastStatus
              && c.value.newStatus == outcome.lookup.available
              && c.value.oldStatus != c.value.newStatus
              && c.value.expiry == outcome.lookup.expiry
  {
    match outcome
    case Raised => None
    case Answered(lookup) =>
      match e.lastStatus
      case None => None
      case Some(previous) =>
        if previous != lookup.available
        then Some(ChangeEvent(e.name, previous, lookup.available, e.priority, lookup.expiry))
        else None
  }

  /** The entry after its lookup: the new status on success, untouched when the lookup raised. */
  function Recheck(e: Entry, outcome: Resolution): Entry
  {
    if outcome.Answered? then e.(lastStatus := Some(outcome.lookup.available)) else e
  }

  /** The results map after one entry's lookup. */
  function Record(results: CheckResults, e: Entry, outcome: Resolution): CheckResults
  {
    if outcome.Answered? then results[e.name := outcome.lookup] else results
  }

  /** What one pass over the entries produces. */
  datatype SweepRun = SweepRun(
    domains: seq<Entry>, results: CheckResults, changes: seq<ChangeEvent>, priorityAlerts: seq<ChangeEvent>)

  /** The `for domain_entry in ...` loop over the entries, given each entry's lookup outcome. */
  function SweepEntries(domains: seq<Entry>, outcomes: seq<Resolution>, results: CheckResults): (r: SweepRun)
    requires |outcomes| == |domains|
    ensures |r.domains| == |domains|
    // the priority alerts are exactly the priority-and-now-available changes, in order
    ensures r.priorityAlerts == Filter(r.changes, IsPriorityAlert)
    ensures |r.changes| <= |domains|
  {
    if domains == [] then SweepRun([], results, [], [])
    else
      var e, outcome := domains[0], outcomes[0];
      var rest := SweepEntries(domains[1..], outcomes[1..], Record(results, e, outcome));
      var found := DetectChange(e, outcome);
      var changes := if found.Some? then [found.value] else [];
      var alerts := if found.Some? && IsPriorityAlert(found.value) then [found.value] else [];
      FilterAppend(changes, rest.changes, IsPriorityAlert);
      SweepRun([Recheck(e, outcome)] + rest.domains, rest.results, changes + rest.changes, alerts + rest.priorityAlerts)
  }

  /** Names and priority flags are kept, and every entry's status is its own new result, or
      its old status when its lookup raised. */
  lemma {:induction false} SweepStatuses(domains: seq<Entry>, outcomes: seq<Resolution>, results: CheckResults)
    requires |outcomes| == |domains|
    ensures forall i :: 0 <= i < |domains| ==>
              && SweepEntries(domains, outcomes, results).domains[i].name == domains[i].name
              && SweepEntries(domains, outcomes, results).domains[i].priority == domains[i].priority
              && SweepEntries(domains, outcomes, results).domains[i].lastStatus ==
                   (if outcomes[i].Answered? then Some(outcomes[i].lookup.available) else domains[i].lastStatus)
  {
    if domains != [] {
      var e, outcome := domains[0], outcomes[0];
      var after := SweepEntries(domains, outcomes, results).domains;
      var rest := SweepEntries(domains[1..], outcomes[1..], Record(results, e, outcome)).domains;
      SweepStatuses(domains[1..], outcomes[1..], Record(results, e, outcome));
      assert after == [Recheck(e, outcome)] + rest;
      forall i | 1 <= i < |domains|
        ensures after[i].name == domains[i].name && after[i].priority == domains[i].priority
        ensures after[i].lastStatus ==
                  (if outcomes[i].Answered? then Some(outcomes[i].lookup.available) else domains[i].lastStatus)
      {
        assert after[i] == rest[i - 1] && domains[i] == domains[1..][i - 1] && outcomes[i] == outcomes[1..][i - 1];
      }
    }
  }

  /** The changes of each entry, lined up with the entries. */
  function Detections(domains: seq<Entry>, outcomes: seq<Resolution>): (ds: seq<Option<ChangeEvent>>)
    requires |outcomes| == |domains|
    ensures |ds| == |domains|
  {
    seq(|domains|, i requires 0 <= i < |domains| => DetectChange(domains[i], outcomes[i]))
  }

  /** The present values of a sequence of options, in order. */
  function Present<T>(s: seq<Option<T>>): seq<T>
  {
    if s == [] then [] else (if s[0].Some? then [s[0].value] else []) + Present(s[1..])
  }

  /** The sweep reports one change per changing entry, in watchlist order, whatever the results
      map held before. */
  lemma {:induction false} SweepChanges(domains: seq<Entry>, outcomes: seq<Resolution>, results: CheckResults)
    requires |outcomes| == |domains|
    ensures SweepEntries(domains, outcomes, results).changes == Present(Detections(domains, outcomes))
  {
    if domains != [] {
      var e, outcome := domains[0], outcomes[0];
      SweepChanges(domains[1..], outcomes[1..], Record(results, e, outcome));
      assert Detections(domains, outcomes)[1..] == Detections(domains[1..], outcomes[1..]);
    }
  }

  /** An entry whose lookup answered, by name. */
  predicate Answers(domains: seq<Entry>, outcomes: seq<Resolution>, d: string)
    requires |outcomes| == |domains|
  {
    exists i :: 0 <= i < |domains| && domains[i].name == d && outcomes[i].Answered?
  }

  /** The results map gains exactly the names whose lookup answered; every other name keeps
      the result it had, so a failed lookup never erases an earlier one. */
  lemma {:induction false} SweepResults(domains: seq<Entry>, outcomes: seq<Resolution>, results: CheckResults)
    requires |outcomes| == |domains|
    ensures forall d :: d in SweepEntries(domains, outcomes, results).results <==>
              d in results || Answers(domains, outcomes, d)
    ensures forall d :: d in results && !Answers(domains, outcomes, d) ==>
              SweepEntries(domains, outcomes, results).results[d] == results[d]
  {
    if domains != [] {
      var e, outcome := domains[0], outcomes[0];
      var recorded := Record(results, e, outcome);
      SweepResults(domains[1..], outcomes[1..], recorded);
      var after := SweepEntries(domains, outcomes, results).results;
      assert after == SweepEntries(domains[1..], outcomes[1..], recorded).results;
      forall d
        ensures Answers(domains, outcomes, d) <==>
                  (e.name == d && outcome.Answered?) || Answers(domains[1..], outcomes[1..], d)
      {
        if Answers(domains, outcomes, d) {
          var i :| 0 <= i < |domains| && domains[i].name == d && outcomes[i].Answered?;
          if i > 0 {
            assert domains[1..][i - 1] == domains[i] && outcomes[1..][i - 1] == outcomes[i];
          }
        }
        if Answers(domains[1..], outcomes[1..], d) {
          var i :| 0 <= i < |domains| - 1 && domains[1..][i].name == d && outcomes[1..][i].Answered?;
          assert domains[i + 1] == domains[1..][i] && outcomes[i + 1] == outcomes[1..][i];
        }
      }
    }
  }

  /** When names are unique, each entry that answered finds its own lookup in the results map. */
  lemma {:induction false} SweepRecordsAnswers(domains: seq<Entry>, outcomes: seq<Resolution>, results: CheckResults)
    requires |outcomes| == |domains|
    requires UniqueNames(domains)
    ensures forall i :: 0 <= i < |domains| && outcomes[i].Answered? ==>
              && domains[i].name in SweepEntries(domains, outcomes, results).results
              && SweepEntries(domains, outcomes, results).results[domains[i].name] == outcomes[i].lookup
  {
    if domains != [] {
      var e, outcome := domains[0], outcomes[0];
      var rest, restOutcomes := domains[1..], outcomes[1..];
      var recorded := Record(results, e, outcome);
      var after := SweepEntries(domains, outcomes, results).results;
      assert after == SweepEntries(rest, restOutcomes, recorded).results;
      assert forall i :: 0 <= i < |rest| ==> rest[i] == domains[i + 1];
      assert forall i :: 0 <= i < |rest| ==> restOutcomes[i] == outcomes[i + 1];
      SweepRecordsAnswers(rest, restOutcomes, recorded);
      if outcome.Answered? {
        // no later entry carries the first entry's name, so its result survives the rest
        assert !Answers(rest, restOutcomes, e.name);
        SweepResults(rest, restOutcomes, recorded);
      }
    }
  }

  /** What `daily_check` leaves behind. */
  datatype DailyRun = DailyRun(
    watchlist: Watchlist, results: CheckResults, changes: seq<ChangeEvent>, priorityAlerts: seq<ChangeEvent>)

  /** `daily_check` at time `now`, given each entry's lookup outcome in watchlist order. */
  function DailyCheck(wl: Watchlist, results: CheckResults, outcomes: seq<Resolution>, now: Timestamp): (r: DailyRun)
    requires |outcomes| == |wl.domains|
    ensures r.watchlist.stats.totalChecks == wl.stats.totalChecks + 1
    ensures r.watchlist.stats.statusChanges == wl.stats.statusChanges + |r.changes|
    ensures r.watchlist.stats.lastAlert == wl.stats.lastAlert
    ensures r.watchlist.lastFullCheck == Some(now)
    ensures |r.watchlist.domains| == |wl.domains|
    ensures r.priorityAlerts == Filter(r.changes, IsPriorityAlert)
    // the changes are the per-entry detections, and every entry carries its own lookup's status
    ensures r.changes == Present(Detections(wl.domains, outcomes))
    ensures forall i :: 0 <= i < |wl.domains| ==> r.watchlist.domains[i] == Recheck(wl.domains[i], outcomes[i])
    // the stored results gain exactly the answered names and keep every other earlier result
    ensures forall d :: d in r.results <==> d in results || Answers(wl.domains, outcomes, d)
    ensures forall d :: d in results && !Answers(wl.domains, outcomes, d) ==> r.results[d] == results[d]
    // with unique names, each answered entry's lookup is stored under its name
    ensures UniqueNames(wl.domains) ==>
              forall i :: 0 <= i < |wl.domains| && outcomes[i].Answered? ==>
                wl.domains[i].name in r.results && r.results[wl.domains[i].name] == outcomes[i].lookup
  {
    SweepChanges(wl.domains, outcomes, results);
    SweepStatuses(wl.domains, outcomes, results);
    SweepResults(wl.domains, outcomes, results);
    var run := SweepEntries(wl.domains, outcomes, results);
    assert UniqueNames(wl.domains) ==>
             forall i :: 0 <= i < |wl.domains| && outcomes[i].Answered? ==>
               wl.domains[i].name in run.results && run.results[wl.domains[i].name] == outcomes[i].lookup by {
      if UniqueNames(wl.domains) {
        SweepRecordsAnswers(wl.domains, outcomes, results);
      }
    }
    var stats := wl.stats.(totalChecks := wl.stats.totalChecks + 1,
                           statusChanges := wl.stats.statusChanges + |run.changes|);
    DailyRun(Watchlist(run.domains, Some(now), stats), run.results, run.changes, run.priorityAlerts)
  }

  /** A domain stored as taken that is now found available yields exactly one change;
      with no stored status it yields none, and a failed lookup never yields one. */
  lemma TransitionDetection(name: string, priority: bool, expiry: Option<Timestamp>)
    ensures DetectChange(Entry(name, priority, Some(false)), Answered(Lookup(true, expiry)))
              == Some(ChangeEvent(name, false, true, priority, expiry))
    ensures DetectChange(Entry(name, priority, None), Answered(Lookup(true, expiry))).None?
    ensures forall status :: DetectChange(Entry(name, priority, status), Raised).None?
  {
  }
}

=== FILE: time.dfy ===
/** Points in time. The bot compares `datetime` values with `datetime.now()`; here a point
    in time is a whole number of seconds and the current time is always an explicit input. */
module Time {

  /** Seconds since an arbitrary epoch. */
  type Timestamp = int

  const SECONDS_PER_DAY: int := 86400

  /** `(expiry - now).days`: Python's `timedelta.days` rounds towards negative infinity,
      so a date twelve hours in the past is day -1 and twelve hours ahead is day 0. */
  function DaysUntil(expiry: Timestamp, now: Timestamp): (d: int)
    ensures d * SECONDS_PER_DAY <= expiry - now < (d + 1) * SECONDS_PER_DAY
  {
    (expiry - now) / SECONDS_PER_DAY
  }
}

=== FILE: tlds.dfy ===
/** The `DomainChecker` class apart from the single lookup: the fixed TLD list, the
    country-flag table, and the fan-out of one base name over every TLD
    (`check_multiple_tlds`). The concurrent `asyncio.gather` is a pointwise map here:
    each probe's outcome depends on its own domain only, and the results are collected
    in TLD order. */
module DomainChecker {
  import opened Basics
  import opened Time
  import opened Resolver

  /** The TLDs every interactive check expands a base name with, in this order. */
  const TLDS: seq<string> := [
    ".com", ".de", ".net", ".org", ".io", ".app", ".dev",
    ".me", ".info", ".biz", ".eu", ".co", ".gg", ".tv",
    ".cloud", ".tech", ".online", ".store", ".website"
  ]

  /** The suffix-to-flag table, in the dictionary's insertion order. Each flag is the pair of
      regional-indicator symbols of the country code written in the trailing comment. */
  const COUNTRY_FLAGS: seq<(string, string)> := [
    (".de", "\U{1F1E9}\U{1F1EA}"),  // DE
    (".com", "\U{1F1FA}\U{1F1F8}"), // US
    (".eu", "\U{1F1EA}\U{1F1FA}"),  // EU
    (".uk", "\U{1F1EC}\U{1F1E7}"),  // GB
    (".fr", "\U{1F1EB}\U{1F1F7}"),  // FR
    (".nl", "\U{1F1F3}\U{1F1F1}"),  // NL
    (".ch", "\U{1F1E8}\U{1F1ED}"),  // CH
    (".at", "\U{1F1E6}\U{1F1F9}"),  // AT
    (".jp", "\U{1F1EF}\U{1F1F5}"),  // JP
    (".cn", "\U{1F1E8}\U{1F1F3}"),  // CN
    (".in", "\U{1F1EE}\U{1F1F3}"),  // IN
    (".au", "\U{1F1E6}\U{1F1FA}"),  // AU
    (".ca", "\U{1F1E8}\U{1F1E6}"),  // CA
    (".br", "\U{1F1E7}\U{1F1F7}"),  // BR
    (".mx", "\U{1F1F2}\U{1F1FD}"),  // MX
    (".ru", "\U{1F1F7}\U{1F1FA}")   // RU
  ]

  /** The white flag returned when no suffix in the table matches. */
  const WHITE_FLAG: string := "\U{1F3F3}\U{FE0F}"

  /** One value of the fan-out's result dictionary: `(is_available, expiry)`, where
      `is_available` is `None` when the probe raised. */
  datatype CheckResult = CheckResult(available: Option<bool>, expiry: Option<Timestamp>)

  /** One entry of the fan-out's result dictionary. */
  datatype Probe = Probe(domain: string, result: CheckResult)

  /** Index of the first table row whose suffix ends `domain`. */
  function FirstFlagRow(domain: string, table: seq<(string, string)>): (r: Option<nat>)
    ensures r.Some? ==>
              && r.value < |table|
              && EndsWith(domain, table[r.value].0)
              && forall j :: 0 <= j < r.value ==> !EndsWith(domain, table[j].0)
    ensures r.None? ==> forall j :: 0 <= j < |table| ==> !EndsWith(domain, table[j].0)
  {
    if table == [] then None
    else if EndsWith(domain, table[0].0) then Some(0)
    else match FirstFlagRow(domain, table[1..])
      case None => None
      case Some(k) => Some(k + 1)
  }

  /** `get_domain_flag`: the flag of the first suffix in table order that ends the domain,
      or the white flag when none does. */
  function GetDomainFlag(domain: string): (flag: string)
    ensures forall j :: 0 <= j < |COUNTRY_FLAGS| && EndsWith(domain, COUNTRY_FLAGS[j].0) ==>
              exists i :: 0 <= i <= j && EndsWith(domain, COUNTRY_FLAGS[i].0) && flag == COUNTRY_FLAGS[i].1
    ensures (forall j :: 0 <= j < |COUNTRY_FLAGS| ==> !EndsWith(domain, COUNTRY_FLAGS[j].0)) ==>
              flag == WHITE_FLAG
  {
    match FirstFlagRow(domain, COUNTRY_FLAGS)
    case Some(i) => COUNTRY_FLAGS[i].1
    case None => WHITE_FLAG
  }

  /** `base_domain.split('.')[0]`: everything before the first dot (the whole name if it has none). */
  function BaseName(name: string): (base: string)
    ensures '.' !in base
    ensures |base| <= |name| && name[..|base|] == base
    ensures |base| < |name| ==> name[|base|] == '.'
  {
    if name == [] || name[0] == '.' then []
    else [name[0]] + BaseName(name[1..])
  }

  /** The base name is the longest dot-free prefix: any prefix without a dot that is followed by
      a dot, or is the whole name, is it. */
  lemma {:induction false} BaseNameUnique(name: string, k: nat)
    requires k <= |name| && '.' !in name[..k]
    requires k < |name| ==> name[k] == '.'
    ensures BaseName(name) == name[..k]
  {
    if k > 0 {
      assert name[0] == name[..k][0];
      assert name[1..][..k - 1] == name[..k][1..];
      BaseNameUnique(name[1..], k - 1);
    }
  }

  /** A probe's dictionary value: an escaped exception becomes `(None, None)`. */
  function ProbeResult(res: Resolution): CheckResult
  {
    match res
    case Raised => CheckResult(None, None)
    case Answered(lookup) => CheckResult(Some(lookup.available), lookup.expiry)
  }

  /** `check_multiple_tlds(name)`: one probe per TLD, in TLD order. */
  function ProbeAll(name: string, net: Network): (probes: seq<Probe>)
    ensures |probes| == |TLDS|
    // the key of probe i is the base name followed by the i-th TLD
    ensures forall i :: 0 <= i < |TLDS| ==> probes[i].domain == BaseName(name) + TLDS[i]
    // a probe is unknown exactly when its own lookup raised, and otherwise carries that lookup
    ensures forall i :: 0 <= i < |TLDS| ==>
              (probes[i].result.available.None? <==> CheckDomainAvailability(net, probes[i].domain).Raised?)
    ensures forall i :: 0 <= i < |TLDS| && CheckDomainAvailability(net, probes[i].domain).Answered? ==>
              var lookup := CheckDomainAvailability(net, probes[i].domain).lookup;
              probes[i].result == CheckResult(Some(lookup.available), lookup.expiry)
    ensures forall i :: 0 <= i < |TLDS| && probes[i].result.available.None? ==> probes[i].result.expiry.None?
  {
    var base := BaseName(name);
    seq(|TLDS|, i requires 0 <= i < |TLDS| =>
      Probe(base + TLDS[i], ProbeResult(CheckDomainAvailability(net, base + TLDS[i]))))
  }

  /** The keys of a list of probes, in order. */
  function Domains(probes: seq<Probe>): (ds: seq<string>)
    ensures |ds| == |probes|
    ensures forall i :: 0 <= i < |probes| ==> ds[i] == probes[i].domain
  {
    if probes == [] then [] else Domains(probes[..|probes| - 1]) + [probes[|probes| - 1].domain]
  }

  /** The `results` dictionary built by `results[key] = value` for each probe in turn. */
  function ResultsMap(probes: seq<Probe>): (m: map<string, CheckResult>)
    ensures forall i :: 0 <= i < |probes| ==> probes[i].domain in m
    ensures forall d :: d in m ==> d in Domains(probes)
  {
    if probes == [] then map[]
    else ResultsMap(probes[..|probes| - 1])[probes[|probes| - 1].domain := probes[|probes| - 1].result]
  }

  /** With distinct keys, the dictionary has one entry per probe and each key maps to its own probe. */
  lemma {:induction false} ResultsMapOfDistinct(probes: seq<Probe>)
    requires Distinct(Domains(probes))
    ensures |ResultsMap(probes)| == |probes|
    ensures forall i :: 0 <= i < |probes| ==> ResultsMap(probes)[probes[i].domain] == probes[i].result
  {
    if probes != [] {
      var n := |probes| - 1;
      var init, last := probes[..n], probes[n];
      var ds, dsi := Domains(probes), Domains(init);
      assert ds == dsi + [last.domain];
      assert Distinct(dsi) by {
        forall i, j | 0 <= i < j < |dsi| ensures dsi[i] != dsi[j] {
          assert dsi[i] == ds[i] && dsi[j] == ds[j];
        }
      }
      assert last.domain !in dsi by {
        forall k | 0 <= k < n ensures dsi[k] != last.domain {
          assert dsi[k] == ds[k] && ds[k] != ds[n];
        }
      }
      ResultsMapOfDistinct(init);
      var m := ResultsMap(init);
      assert ResultsMap(probes) == m[last.domain := last.result];
      assert last.domain !in m;
      forall i | 0 <= i < n
        ensures ResultsMap(probes)[probes[i].domain] == probes[i].result
      {
        assert probes[i] == init[i] && dsi[i] == probes[i].domain;
      }
    }
  }

  /** Position of `t` in the TLD list, or -1 when it is not listed. `TLDS` is the definition;
      this decoding aid spells the list out again so that the solver can decode each entry by
      plain string comparisons, and `TldPositions0` to `TldPositions15` check it against `TLDS`. */
  function TldPosition(t: string): int
  {
    if t == ".com" then 0 else
    if t == ".de" then 1 else
    if t == ".net" then 2 else
    if t == ".org" then 3 else
    if t == ".io" then 4 else
    if t == ".app" then 5 else
    if t == ".dev" then 6 else
    if t == ".me" then 7 else
    if t == ".info" then 8 else
    if t == ".biz" then 9 else
    if t == ".eu" then 10 else
    if t == ".co" then 11 else
    if t == ".gg" then 12 else
    if t == ".tv" then 13 else
    if t == ".cloud" then 14 else
    if t == ".tech" then 15 else
    if t == ".online" then 16 else
    if t == ".store" then 17 else
    if t == ".website" then 18 else
    -1
  }

  lemma TldPositions0()
    ensures forall i :: 0 <= i < 5 ==> TldPosition(TLDS[i]) == i
  {
    assert TldPosition(TLDS[0]) == 0;
    assert TldPosition(TLDS[1]) == 1;
    assert TldPosition(TLDS[2]) == 2;
    assert TldPosition(TLDS[3]) == 3;
    assert TldPosition(TLDS[4]) == 4;
  }

  lemma TldPositions5()
    ensures forall i :: 5 <= i < 10 ==> TldPosition(TLDS[i]) == i
  {
    assert TldPosition(TLDS[5]) == 5;
    assert TldPosition(TLDS[6]) == 6;
    assert TldPosition(TLDS[7]) == 7;
    assert TldPosition(TLDS[8]) == 8;
    assert TldPosition(TLDS[9]) == 9;
  }

  lemma TldPositions10()
    ensures forall i :: 10 <= i < 15 ==> TldPosition(TLDS[i]) == i
  {
    assert TldPosition(TLDS[10]) == 10;
    assert TldPosition(TLDS[11]) == 11;
    assert TldPosition(TLDS[12]) == 12;
    assert TldPosition(TLDS[13]) == 13;
    assert TldPosition(TLDS[14]) == 14;
  }

  lemma TldPositions15()
    ensures forall i :: 15 <= i < 19 ==> TldPosition(TLDS[i]) == i
  {
    assert TldPosition(TLDS[15]) == 15;
    assert TldPosition(TLDS[16]) == 16;
    assert TldPosition(TLDS[17]) == 17;
    assert TldPosition(TLDS[18]) == 18;
  }

  /** No two TLDs in the list are equal: each one decodes to its own position. */
  lemma TldsDistinct()
    ensures Distinct(TLDS)
    ensures forall i :: 0 <= i < |TLDS| ==> TldPosition(TLDS[i]) == i
  {
    TldPositions0();
    TldPositions5();
    TldPositions10();
    TldPositions15();
  }

  /** Equal prefixes cancel: two expansions of one base name coincide only for the same TLD. */
  lemma AppendCancel(base: string, a: string, b: string)
    ensures base + a == base + b ==> a == b
  {
    assert a == (base + a)[|base|..];
    assert b == (base + b)[|base|..];
  }

  /** The expansion yields pairwise different domains. */
  lemma {:induction false} ExpansionDistinct(name: string, net: Network)
    ensures Distinct(Domains(ProbeAll(name, net)))
  {
    var probes := ProbeAll(name, net);
    var base := BaseName(name);
    TldsDistinct();
    forall i, j | 0 <= i < j < |probes|
      ensures Domains(probes)[i] != Domains(probes)[j]
    {
      AppendCancel(base, TLDS[i], TLDS[j]);
    }
  }

  /** The result dictionary of `check_multiple_tlds` has exactly one key per TLD, `base + tld`,
      and that key holds its own probe's outcome, whatever happened to the other probes. */
  lemma {:induction false} ExpansionResults(name: string, net: Network)
    ensures |ResultsMap(ProbeAll(name, net))| == |TLDS|
    ensures forall i :: 0 <= i < |TLDS| ==>
              ResultsMap(ProbeAll(name, net))[BaseName(name) + TLDS[i]]
                == ProbeResult(CheckDomainAvailability(net, BaseName(name) + TLDS[i]))
    ensures forall d :: d in ResultsMap(ProbeAll(name, net)) ==>
              exists i :: 0 <= i < |TLDS| && d == BaseName(name) + TLDS[i]
  {
    var probes := ProbeAll(name, net);
    ExpansionDistinct(name, net);
    ResultsMapOfDistinct(probes);
    forall d | d in ResultsMap(probes)
      ensures exists i :: 0 <= i < |TLDS| && d == BaseName(name) + TLDS[i]
    {
      var i :| 0 <= i < |probes| && Domains(probes)[i] == d;
      assert d == BaseName(name) + TLDS[i];
    }
  }

  /** The result dictionary has as many keys as there are probes. */
  lemma ExpansionSize(name: string, net: Network)
    ensures |ResultsMap(ProbeAll(name, net))| == |ProbeAll(name, net)|
  {
    ExpansionDistinct(name, net);
    ResultsMapOfDistinct(ProbeAll(name, net));
  }

  /** A failing probe does not disturb its siblings: two networks that agree on every expanded
      domain except the k-th produce the same probes everywhere except at k. */
  lemma SiblingsIndependent(name: string, net1: Network, net2: Network, k: nat)
    requires k < |TLDS|
    requires forall i :: 0 <= i < |TLDS| && i != k ==>
               CheckDomainAvailability(net1, BaseName(name) + TLDS[i])
                 == CheckDomainAvailability(net2, BaseName(name) + TLDS[i])
    ensures forall i :: 0 <= i < |TLDS| && i != k ==> ProbeAll(name, net1)[i] == ProbeAll(name, net2)[i]
  {
  }

  /** A fully qualified name is cut at its first dot before expansion:
      "shop.de" is probed as shop.com and shop.de. */
  lemma QualifiedNameExpansion(net: Network)
    ensures BaseName("shop.de") == "shop"
    ensures ProbeAll("shop.de", net)[0].domain == "shop.com"
    ensures ProbeAll("shop.de", net)[1].domain == "shop.de"
  {
    assert "shop.de"[..4] == "shop";
    BaseNameUnique("shop.de", 4);
  }

  /** ... and never as shop.de.com. */
  lemma QualifiedNameNotAppended(net: Network)
    ensures forall i :: 0 <= i < |TLDS| ==> ProbeAll("shop.de", net)[i].domain != "shop.de.com"
  {
    QualifiedNameExpansion(net);
    TldsDistinct();
    assert TldPosition(".de.com") == -1;
    forall i | 0 <= i < |TLDS|
      ensures ProbeAll("shop.de", net)[i].domain != "shop.de.com"
    {
      assert "shop.de.com" == "shop" + ".de.com";
      AppendCancel("shop", TLDS[i], ".de.com");
    }
  }
}

=== FILE: watchlist.dfy ===
/** The watchlist store and the `!watchlist` command (`manage_watchlist`): an ordered list of
    monitored domains with their priority flag and last known status, plus the statistics.
    Saving to and loading from the JSON file are not modelled; the built-in seed is. */
module Watchlist {
  import opened Basics
  import opened Time

  /** One monitored domain: `{"name", "priority", "last_status"}`, where `last_status` is
      `None` until the first successful daily check. */
  datatype Entry = Entry(name: string, priority: bool, lastStatus: Option<bool>)

  /** `stats`: `last_alert` is part of the stored document but nothing ever sets it. */
  datatype Stats = Stats(totalChecks: nat, statusChanges: nat, lastAlert: Option<Timestamp>)

  /** The whole stored document. */
  datatype Watchlist = Watchlist(domains: seq<Entry>, lastFullCheck: Option<Timestamp>, stats: Stats)

  /** The watchlist used when no file can be loaded. */
  const SEED: Watchlist := Watchlist(
    [Entry("example.com", false, None), Entry("test.de", true, None), Entry("myproject.io", false, None)],
    None,
    Stats(0, 0, None))

  /** Some entry carries this name. */
  predicate Watched(domains: seq<Entry>, name: string)
  {
    exists i :: 0 <= i < |domains| && domains[i].name == name
  }

  /** No name occurs twice. */
  predicate UniqueNames(domains: seq<Entry>)
  {
    forall i, j :: 0 <= i < j < |domains| ==> domains[i].name != domains[j].name
  }

  /** The words that mark a new entry as priority, compared after lower-casing. */
  const PRIORITY_WORDS: seq<string> := ["true", "yes", "1", "priority", "wichtig"]

  predicate IsPriorityWord(word: string)
  {
    Lower(word) in PRIORITY_WORDS
  }

  /** The outcome of `add`: the new list, or a rejection because the name is already there. */
  datatype AddOutcome = Added(domains: seq<Entry>) | AlreadyWatched

  /** `add`: rejects a name that is already present, otherwise appends a new unchecked entry at the end. */
  function AddDomain(domains: seq<Entry>, name: string, priority: bool): (r: AddOutcome)
    ensures r.AlreadyWatched? <==> Watched(domains, name)
    ensures r.Added? ==>
              && |r.domains| == |domains| + 1
              && r.domains[..|domains|] == domains
              && r.domains[|domains|] == Entry(name, priority, None)
    ensures UniqueNames(domains) && r.Added? ==> UniqueNames(r.domains)
  {
    if Watched(domains, name) then AlreadyWatched
    else Added(domains + [Entry(name, priority, None)])
  }

  /** `remove`: the entries whose name differs, in their original order. */
  function Without(domains: seq<Entry>, name: string): (r: seq<Entry>)
    ensures |r| <= |domains|
    ensures forall i :: 0 <= i < |r| ==> r[i].name != name && r[i] in domains
    ensures forall i :: 0 <= i < |domains| && domains[i].name != name ==> domains[i] in r
    ensures |r| == |domains| <==> !Watched(domains, name)
    ensures UniqueNames(domains) ==> UniqueNames(r)
  {
    if domains == [] then []
    else if domains[0].name == name then Without(domains[1..], name)
    else [domains[0]] + Without(domains[1..], name)
  }

  /** `remove` together with its verdict: found exactly when the list got shorter. */
  function RemoveDomain(domains: seq<Entry>, name: string): (r: (seq<Entry>, bool))
    ensures r.1 <==> |r.0| < |domains|
    ensures r.1 <==> Watched(domains, name)
    ensures !Watched(r.0, name)
    ensures UniqueNames(domains) ==> UniqueNames(r.0)
  {
    var kept := Without(domains, name);
    (kept, |kept| < |domains|)
  }

  /** Removing keeps the relative order of the others: it distributes over concatenation. */
  lemma {:induction false} WithoutAppend(a: seq<Entry>, b: seq<Entry>, name: string)
    ensures Without(a + b, name) == Without(a, name) + Without(b, name)
  {
    if a == [] {
      assert a + b == b;
    } else {
      assert (a + b)[1..] == a[1..] + b;
      WithoutAppend(a[1..], b, name);
    }
  }

  /** Removing a name that is not watched changes nothing. */
  lemma {:induction false} WithoutAbsent(domains: seq<Entry>, name: string)
    requires !Watched(domains, name)
    ensures Without(domains, name) == domains
  {
    if domains != [] {
      assert !Watched(domains[1..], name) by {
        assert forall i :: 0 <= i < |domains| - 1 ==> domains[1..][i] == domains[i + 1];
      }
      WithoutAbsent(domains[1..], name);
    }
  }

  /** Adding a new name and removing it again gives back the original list, and both steps
      report success. */
  lemma AddThenRemove(domains: seq<Entry>, name: string, priority: bool)
    requires !Watched(domains, name)
    ensures AddDomain(domains, name, priority).Added?
    ensures RemoveDomain(AddDomain(domains, name, priority).domains, name) == (domains, true)
  {
    var newEntry := Entry(name, priority, None);
    var added := AddDomain(domains, name, priority).domains;
    assert added == domains + [newEntry];
    WithoutAppend(domains, [newEntry], name);
    WithoutAbsent(domains, name);
    assert Without([newEntry], name) == Without([], name) == [];
    assert Without(added, name) == domains;
  }

  /** Lower-casing twice is lower-casing once. */
  lemma LowerIdempotent(s: string)
    ensures Lower(Lower(s)) == Lower(s)
  {
  }

  /** The priority word is read case-insensitively. */
  lemma PriorityWordIgnoresCase(w: string)
    ensures IsPriorityWord(w) <==> IsPriorityWord(Lower(w))
  {
    LowerIdempotent(w);
  }

  /** "TRUE" marks priority ... */
  lemma PriorityWordUpperCase()
    ensures IsPriorityWord("TRUE")
  {
    assert Lower("TRUE") == "true" by {
      assert Lower("TRUE")[0] == 't';
    }
  }

  /** ... while the default word "false" does not. */
  lemma PriorityWordDefault()
    ensures !IsPriorityWord("false")
  {
    assert Lower("false") == "false";
  }

  /** One line of the watchlist overview: green when the last status was `True`
      (an unknown status shows red, like a taken one). */
  datatype ListRow = ListRow(name: string, shownAvailable: bool)

  /** What the `!watchlist` command answers. */
  datatype Reply =
    | Overview(priorityRows: seq<ListRow>, standardRows: seq<ListRow>, totalChecks: nat, statusChanges: nat)
    | Usage
    | AddedReply(name: string, priority: bool)
    | DuplicateReply(name: string)
    | RemovedReply(name: string)
    | NotFoundReply(name: string)

  /** The overview's two columns: priority entries and the others, each in watchlist order. */
  function OverviewRows(domains: seq<Entry>): (r: (seq<ListRow>, seq<ListRow>))
    ensures |r.0| + |r.1| == |domains|
    ensures forall i :: 0 <= i < |domains| ==>
              ListRow(domains[i].name, domains[i].lastStatus == Some(true)) in (if domains[i].priority then r.0 else r.1)
  {
    if domains == [] then ([], [])
    else
      var e := domains[0];
      var row := ListRow(e.name, e.lastStatus == Some(true));
      var rest := OverviewRows(domains[1..]);
      assert forall i :: 1 <= i < |domains| ==> domains[i] == domains[1..][i - 1];
      if e.priority then ([row] + rest.0, rest.1) else (rest.0, [row] + rest.1)
  }

  /** A new entry at the end of the list adds exactly one row, at the end of its own column,
      and leaves every other row where it was. */
  lemma {:induction false} OverviewRowsAppend(domains: seq<Entry>, e: Entry)
    ensures var rows, row := OverviewRows(domains), ListRow(e.name, e.lastStatus == Some(true));
            OverviewRows(domains + [e]) == if e.priority then (rows.0 + [row], rows.1) else (rows.0, rows.1 + [row])
  {
    if domains == [] {
      var row := ListRow(e.name, e.lastStatus == Some(true));
      assert domains + [e] == [e] && [e][0] == e && [e][1..] == [];
      assert OverviewRows(domains) == OverviewRows([e][1..]) == ([], []);
      assert [row] + [] == [] + [row];
    } else {
      var h := domains[0];
      var hrow := ListRow(h.name, h.lastStatus == Some(true));
      assert (domains + [e])[0] == h;
      assert (domains + [e])[1..] == domains[1..] + [e];
      OverviewRowsAppend(domains[1..], e);
      var rest, rest' := OverviewRows(domains[1..]), OverviewRows(domains[1..] + [e]);
      assert OverviewRows(domains) == if h.priority then ([hrow] + rest.0, rest.1) else (rest.0, [hrow] + rest.1);
      assert OverviewRows(domains + [e]) == if h.priority then ([hrow] + rest'.0, rest'.1) else (rest'.0, [hrow] + rest'.1);
      var row := ListRow(e.name, e.lastStatus == Some(true));
      if e.priority {
        assert [hrow] + (rest.0 + [row]) == ([hrow] + rest.0) + [row];
      } else {
        assert [hrow] + (rest.1 + [row]) == ([hrow] + rest.1) + [row];
      }
    }
  }

  /** After a successful `add`, the overview shows the new name once more than before, as a red
      row (no status yet) in the column its priority flag picks. */
  lemma AddedRowShown(domains: seq<Entry>, name: string, priority: bool)
    requires !Watched(domains, name)
    ensures var rows, row := OverviewRows(domains), ListRow(name, false);
            OverviewRows(AddDomain(domains, name, priority).domains)
              == if priority then (rows.0 + [row], rows.1) else (rows.0, rows.1 + [row])
  {
    OverviewRowsAppend(domains, Entry(name, priority, None));
  }

  /** The argument is present and non-empty (Python truthiness of an optional string). */
  predicate Given(arg: Option<string>)
  {
    arg.Some? && arg.value != []
  }

  /** `manage_watchlist(action, domain, priority)`. Only `add` and `remove` change the list;
      nothing here touches the statistics or the last full check. */
  function Command(wl: Watchlist, action: Option<string>, domain: Option<string>, priorityWord: string)
    : (r: (Watchlist, Reply))
    ensures r.0.stats == wl.stats && r.0.lastFullCheck == wl.lastFullCheck
    ensures !(r.1.AddedReply? || r.1.RemovedReply?) ==> r.0 == wl
    ensures r.1.AddedReply? ==>
              && action.Some? && Lower(action.value) == "add" && Given(domain)
              && !Watched(wl.domains, domain.value)
              && r.1.priority == IsPriorityWord(priorityWord)
              && r.0.domains == wl.domains + [Entry(domain.value, r.1.priority, None)]
    ensures r.1.DuplicateReply? ==> Watched(wl.domains, r.1.name)
    ensures r.1.RemovedReply? ==>
              && action.Some? && Lower(action.value) == "remove" && Given(domain)
              && Watched(wl.domains, domain.value)
              && !Watched(r.0.domains, domain.value)
              && |r.0.domains| < |wl.domains|
              && r.0.domains == Without(wl.domains, domain.value)
    ensures r.1.NotFoundReply? ==> !Watched(wl.domains, r.1.name)
    ensures action.None? <==> r.1.Overview?
    // an `add` of a given name adds it exactly when it is new, and reports a duplicate otherwise
    ensures action.Some? && Lower(action.value) == "add" && Given(domain) ==>
              && (r.1.AddedReply? <==> !Watched(wl.domains, domain.value))
              && (r.1.DuplicateReply? <==> Watched(wl.domains, domain.value))
    // a `remove` of a given name removes it exactly when it is watched, and reports it missing otherwise
    ensures action.Some? && Lower(action.value) == "remove" && Given(domain) ==>
              && (r.1.RemovedReply? <==> Watched(wl.domains, domain.value))
              && (r.1.NotFoundReply? <==> !Watched(wl.domains, domain.value))
    // any other action, or one without a name, gets the usage text
    ensures action.Some? && !((Lower(action.value) == "add" || Lower(action.value) == "remove") && Given(domain)) ==>
              r.1.Usage?
    ensures UniqueNames(wl.domains) ==> UniqueNames(r.0.domains)
    // a command never invents a status: every entry is an old one or a new unchecked one
    ensures forall i :: 0 <= i < |r.0.domains| ==> r.0.domains[i] in wl.domains || r.0.domains[i].lastStatus.None?
  {
    if action.None? then
      var rows := OverviewRows(wl.domains);
      (wl, Overview(rows.0, rows.1, wl.stats.totalChecks, wl.stats.statusChanges))
    else if Lower(action.value) == "add" && Given(domain) then
      var priority := IsPriorityWord(priorityWord);
      match AddDomain(wl.domains, domain.value, priority)
      case AlreadyWatched => (wl, DuplicateReply(domain.value))
      case Added(domains) => (wl.(domains := domains), AddedReply(domain.value, priority))
    else if Lower(action.value) == "remove" && Given(domain) then
      var (kept, found) := RemoveDomain(wl.domains, domain.value);
      if found then (wl.(domains := kept), RemovedReply(domain.value))
      else (wl, NotFoundReply(domain.value))
    else (wl, Usage)
  }
}

=== FILE: weekly.dfy ===
/** The weekly digest (`send_weekly_report`): the watchlist entries that have a stored result
    are classified into newly available, newly taken, priority-available, available, taken and
    expiring soon, and the digest carries the counts and whether the alert role is mentioned.
    Week numbers, dates, percentages and the embed text are not modelled. */
module Weekly {
  import opened Basics
  import opened Time
  import opened Resolver
  import opened Watchlist
  import opened Sweep

  /** A taken domain is "expiring soon" with fewer than this many whole days left. */
  const SOON_DAYS: int := 30

  /** How many rows the digest previews before it sends the full list separately. */
  const PREVIEW_ROWS: nat := 5

  /** The lists the report loop builds. */
  datatype WeeklyLists = WeeklyLists(
    newlyAvailable: seq<string>,
    newlyTaken: seq<string>,
    priorityAvailable: seq<string>,
    available: seq<string>,
    taken: seq<(string, Option<int>)>,     // with the whole days left when an expiry is stored
    expiringSoon: seq<(string, int)>)

  /** The stored status differs from the stored result, and the stored status is known. */
  predicate Disagrees(e: Entry, lookup: Lookup)
  {
    e.lastStatus.Some? && e.lastStatus.value != lookup.available
  }

  /** The whole days left of a stored result, when it carries an expiry. */
  function DaysLeft(lookup: Lookup, now: Timestamp): Option<int>
  {
    if lookup.expiry.Some? then Some(DaysUntil(lookup.expiry.value, now)) else None
  }

  /** The loop over the watchlist; entries without a stored result are skipped. */
  function ReportLists(domains: seq<Entry>, results: CheckResults, now: Timestamp): (w: WeeklyLists)
    ensures |w.priorityAvailable| + |w.available| + |w.taken| <= |domains|
    ensures forall t :: t in w.expiringSoon ==> 0 < t.1 < SOON_DAYS && (t.0, Some(t.1)) in w.taken
    ensures forall t :: t in w.taken && t.1.Some? && 0 < t.1.value < SOON_DAYS ==> (t.0, t.1.value) in w.expiringSoon
  {
    if domains == [] then WeeklyLists([], [], [], [], [], [])
    else
      var e := domains[0];
      var rest := ReportLists(domains[1..], results, now);
      if e.name !in results then rest
      else
        var lookup := results[e.name];
        var newlyAvailable := if Disagrees(e, lookup) && lookup.available then [e.name] else [];
        var newlyTaken := if Disagrees(e, lookup) && !lookup.available then [e.name] else [];
        if lookup.available then
          rest.(newlyAvailable := newlyAvailable + rest.newlyAvailable,
                newlyTaken := newlyTaken + rest.newlyTaken,
                priorityAvailable := (if e.priority then [e.name] else []) + rest.priorityAvailable,
                available := (if e.priority then [] else [e.name]) + rest.available)
        else
          var days := DaysLeft(lookup, now);
          var soon := if days.Some? && 0 < days.value < SOON_DAYS then [(e.name, days.value)] else [];
          rest.(newlyAvailable := newlyAvailable + rest.newlyAvailable,
                newlyTaken := newlyTaken + rest.newlyTaken,
                taken := [(e.name, days)] + rest.taken,
                expiringSoon := soon + rest.expiringSoon)
  }

  /** The names of some entries, in order. */
  function Names(s: seq<Entry>): (names: seq<string>)
    ensures |names| == |s|
    ensures forall i :: 0 <= i < |s| ==> names[i] == s[i].name
  {
    if s == [] then [] else [s[0].name] + Names(s[1..])
  }

  lemma {:induction false} NamesAppend(a: seq<Entry>, b: seq<Entry>)
    ensures Names(a + b) == Names(a) + Names(b)
  {
    assert forall i :: 0 <= i < |a + b| ==> Names(a + b)[i] == (Names(a) + Names(b))[i];
  }

  /** The entries whose stored result disagrees with their known status and says `available`. */
  function ChangedTo(results: CheckResults, available: bool): Entry -> bool
  {
    (e: Entry) => e.name in results && Disagrees(e, results[e.name]) && results[e.name].available == available
  }

  /** `Sweep.StoredAvailable` split by the priority flag. */
  function AvailableWith(results: CheckResults, priority: bool): Entry -> bool
  {
    (e: Entry) => e.name in results && results[e.name].available && e.priority == priority
  }

  /** The "newly available" list holds the names of exactly the entries whose known status
      disagrees with a stored result that says available, in watchlist order. */
  lemma {:induction false} ReportNewlyAvailable(domains: seq<Entry>, results: CheckResults, now: Timestamp)
    ensures ReportLists(domains, results, now).newlyAvailable == Names(Filter(domains, ChangedTo(results, true)))
  {
    if domains != [] {
      var e, keep := domains[0], ChangedTo(results, true);
      var head := if keep(e) then [e] else [];
      assert ReportLists(domains, results, now).newlyAvailable
               == Names(head) + ReportLists(domains[1..], results, now).newlyAvailable;
      assert Filter(domains, keep) == head + Filter(domains[1..], keep);
      ReportNewlyAvailable(domains[1..], results, now);
      NamesAppend(head, Filter(domains[1..], keep));
    }
  }

  /** The "newly taken" list, likewise for a stored result that says taken. */
  lemma {:induction false} ReportNewlyTaken(domains: seq<Entry>, results: CheckResults, now: Timestamp)
    ensures ReportLists(domains, results, now).newlyTaken == Names(Filter(domains, ChangedTo(results, false)))
  {
    if domains != [] {
      var e, keep := domains[0], ChangedTo(results, false);
      var head := if keep(e) then [e] else [];
      assert ReportLists(domains, results, now).newlyTaken
               == Names(head) + ReportLists(domains[1..], results, now).newlyTaken;
      assert Filter(domains, keep) == head + Filter(domains[1..], keep);
      ReportNewlyTaken(domains[1..], results, now);
      NamesAppend(head, Filter(domains[1..], keep));
    }
  }

  /** The priority-available list holds the names of exactly the priority entries whose
      stored result says available, in watchlist order. */
  lemma {:induction false} ReportPriorityAvailable(domains: seq<Entry>, results: CheckResults, now: Timestamp)
    ensures ReportLists(domains, results, now).priorityAvailable == Names(Filter(domains, AvailableWith(results, true)))
  {
    if domains != [] {
      var e, keep := domains[0], AvailableWith(results, true);
      var head := if keep(e) then [e] else [];
      assert ReportLists(domains, results, now).priorityAvailable
               == Names(head) + ReportLists(domains[1..], results, now).priorityAvailable;
      assert Filter(domains, keep) == head + Filter(domains[1..], keep);
      ReportPriorityAvailable(domains[1..], results, now);
      NamesAppend(head, Filter(domains[1..], keep));
    }
  }

  /** The available list, likewise for the other entries. */
  lemma {:induction false} ReportOrdinaryAvailable(domains: seq<Entry>, results: CheckResults, now: Timestamp)
    ensures ReportLists(domains, results, now).available == Names(Filter(domains, AvailableWith(results, false)))
  {
    if domains != [] {
      var e, keep := domains[0], AvailableWith(results, false);
      var head := if keep(e) then [e] else [];
      assert ReportLists(domains, results, now).available
               == Names(head) + ReportLists(domains[1..], results, now).available;
      assert Filter(domains, keep) == head + Filter(domains[1..], keep);
      ReportOrdinaryAvailable(domains[1..], results, now);
      NamesAppend(head, Filter(domains[1..], keep));
    }
  }

  /** The taken rows of some entries with a stored result: each name with its whole days left. */
  function TakenRows(s: seq<Entry>, results: CheckResults, now: Timestamp): (rows: seq<(string, Option<int>)>)
    requires forall i :: 0 <= i < |s| ==> s[i].name in results
    ensures |rows| == |s|
    ensures forall i :: 0 <= i < |s| ==> rows[i] == (s[i].name, DaysLeft(results[s[i].name], now))
  {
    if s == [] then [] else [(s[0].name, DaysLeft(results[s[0].name], now))] + TakenRows(s[1..], results, now)
  }

  lemma {:induction false} TakenRowsAppend(a: seq<Entry>, b: seq<Entry>, results: CheckResults, now: Timestamp)
    requires forall i :: 0 <= i < |a| ==> a[i].name in results
    requires forall i :: 0 <= i < |b| ==> b[i].name in results
    ensures forall i :: 0 <= i < |a + b| ==> (a + b)[i].name in results
    ensures TakenRows(a + b, results, now) == TakenRows(a, results, now) + TakenRows(b, results, now)
  {
    assert forall i :: 0 <= i < |a + b| ==>
      TakenRows(a + b, results, now)[i] == (TakenRows(a, results, now) + TakenRows(b, results, now))[i];
  }

  /** The taken list holds exactly the entries whose stored result says taken, in watchlist
      order, each with the whole days left until its stored expiry. */
  lemma {:induction false} ReportTaken(domains: seq<Entry>, results: CheckResults, now: Timestamp)
    ensures forall i :: 0 <= i < |Filter(domains, StoredTaken(results))| ==>
              Filter(domains, StoredTaken(results))[i].name in results
    ensures ReportLists(domains, results, now).taken == TakenRows(Filter(domains, StoredTaken(results)), results, now)
    ensures |ReportLists(domains, results, now).taken| == Count(domains, StoredTaken(results))
  {
    var keep := StoredTaken(results);
    FilterLength(domains, keep);
    if domains != [] {
      var e := domains[0];
      var head := if keep(e) then [e] else [];
      assert Filter(domains, keep) == head + Filter(domains[1..], keep);
      ReportTaken(domains[1..], results, now);
      TakenRowsAppend(head, Filter(domains[1..], keep), results, now);
      assert ReportLists(domains, results, now).taken
               == TakenRows(head, results, now) + ReportLists(domains[1..], results, now).taken;
    }
  }

  /** The invariant the sweep keeps: an entry whose name has a stored result either has no
      known status or has exactly the stored availability. */
  predicate Consistent(domains: seq<Entry>, results: CheckResults)
  {
    forall i :: 0 <= i < |domains| && domains[i].name in results ==>
      domains[i].lastStatus.None? || domains[i].lastStatus == Some(results[domains[i].name].available)
  }

  /** Under the invariant the report never sees a change: both "newly" lists are empty. */
  lemma {:induction false} NoNewsWhenConsistent(domains: seq<Entry>, results: CheckResults, now: Timestamp)
    requires Consistent(domains, results)
    ensures ReportLists(domains, results, now).newlyAvailable == []
    ensures ReportLists(domains, results, now).newlyTaken == []
  {
    if domains != [] {
      assert Consistent(domains[1..], results) by {
        assert forall i :: 0 <= i < |domains| - 1 ==> domains[1..][i] == domains[i + 1];
      }
      NoNewsWhenConsistent(domains[1..], results, now);
    }
  }

  /** The sizes of the report lists, as counts over the entries. */
  lemma ReportSizes(domains: seq<Entry>, results: CheckResults, now: Timestamp)
    ensures var w := ReportLists(domains, results, now);
            && |w.priorityAvailable| == Count(domains, AvailableWith(results, true))
            && |w.available| == Count(domains, AvailableWith(results, false))
            && |w.taken| == Count(domains, StoredTaken(results))
            && |w.newlyAvailable| == Count(domains, ChangedTo(results, true))
            && |w.newlyTaken| == Count(domains, ChangedTo(results, false))
  {
    ReportNewlyAvailable(domains, results, now);
    ReportNewlyTaken(domains, results, now);
    ReportPriorityAvailable(domains, results, now);
    ReportOrdinaryAvailable(domains, results, now);
    ReportTaken(domains, results, now);
    FilterLength(domains, AvailableWith(results, true));
    FilterLength(domains, AvailableWith(results, false));
    FilterLength(domains, ChangedTo(results, true));
    FilterLength(domains, ChangedTo(results, false));
  }

  /** The digest. */
  datatype Digest = Digest(
    lists: WeeklyLists,
    total: nat,                // monitored domains
    statusChanges: nat,        // the header's change figure
    availableCount: nat,
    takenCount: nat,
    priorityWatch: nat,        // entries flagged priority, checked or not
    mentionRole: bool,         // the alert role is pinged before the digest
    changesField: bool,        // the "changes this week" field is present
    expiringField: bool,       // the "expiring soon" field is present
    detailList: bool)          // the full list follows in a second message

  predicate IsPriorityEntry(e: Entry) { e.priority }

  /** `send_weekly_report` for the watchlist and the stored results at time `now`. */
  function WeeklyReport(wl: Watchlist, results: CheckResults, now: Timestamp): (d: Digest)
    ensures d.total == |wl.domains|
    ensures d.statusChanges == |d.lists.newlyAvailable| + |d.lists.newlyTaken|
    ensures d.availableCount + d.takenCount <= d.total
    // the figures count the entries by their stored result and known status
    ensures d.availableCount == Count(wl.domains, AvailableWith(results, true)) + Count(wl.domains, AvailableWith(results, false))
    ensures d.takenCount == Count(wl.domains, StoredTaken(results))
    ensures d.statusChanges == Count(wl.domains, ChangedTo(results, true)) + Count(wl.domains, ChangedTo(results, false))
    ensures d.lists == ReportLists(wl.domains, results, now)
  {
    ReportSizes(wl.domains, results, now);
    var w := ReportLists(wl.domains, results, now);
    Digest(
      w, |wl.domains|,
      |w.newlyAvailable| + |w.newlyTaken|,
      |w.available| + |w.priorityAvailable|, |w.taken|,
      Count(wl.domains, IsPriorityEntry),
      w.priorityAvailable != [],
      w.newlyAvailable != [] || w.newlyTaken != [],
      w.expiringSoon != [],
      |w.available| > PREVIEW_ROWS || |w.taken| > PREVIEW_ROWS)
  }

  /** The role is mentioned exactly when some priority entry's stored result says available;
      a domain about to expire does not trigger it. */
  lemma WeeklyMention(wl: Watchlist, results: CheckResults, now: Timestamp)
    ensures WeeklyReport(wl, results, now).mentionRole <==>
              exists i :: 0 <= i < |wl.domains| && AvailableWith(results, true)(wl.domains[i])
  {
    ReportPriorityAvailable(wl.domains, results, now);
    FilterLength(wl.domains, AvailableWith(results, true));
    CountPositive(wl.domains, AvailableWith(results, true));
  }

  /** On a consistent state the header always reports zero changes and the changes field is
      never shown. */
  lemma WeeklyQuiet(wl: Watchlist, results: CheckResults, now: Timestamp)
    requires Consistent(wl.domains, results)
    ensures WeeklyReport(wl, results, now).statusChanges == 0
    ensures !WeeklyReport(wl, results, now).changesField
  {
    NoNewsWhenConsistent(wl.domains, results, now);
  }
}
